=== FILE: README.md ===
# Area-calculator result log, modelled in Dafny

The calculator writes each computed result (a dict such as
`{"fecha": ..., "figura": "circulo", "area": 3.14, "parametros": {...}}`) to
`areas.json`. That file is meant to be one JSON array, to which records are
appended. `utils_json.py` keeps the log and reads it back through an in-memory
cache. This project models that
subsystem as pure functions over immutable state:

- **`PyJson`**: the Python values `json.load` produces, plus the bits of
  Python semantics the code relies on: truthiness, `default or []`,
  `dict.get`, `isinstance(v, (int, float))` (where `bool` counts as `int`),
  and the key equality `Counter` uses (`1 == 1.0 == True`).
- **`Cache`**: `CacheJSON`, with `invalidar`, `is_valid`, `get` and `set`. The
  clock reading and the file's current state are parameters. The stamp
  `_timestamp` is `NoStamp`, `At(t)`, or `MethodObj` (the bound method line 70
  stores).
- **`Loader`**: `cargar_json`. Reading and decoding the file is the function
  parameter `parse`. Every read or decode failure is its `Failed` outcome.
- **`Text`**: `str.split('\n')`, `str.join`, the `strip()` blankness test, and
  the four-space re-indentation of a serialised record.
- **`Append`**: the in-place append on an existing log, as a pure function on
  the file's text:
  - a backward scan for `]`;
  - the comma decision;
  - the overwrite in `r+` mode, which keeps the bytes beyond the written ones.

  `LogText` is the layout `json.dump([dato], f, indent=4)` starts the file with.
- **`History`**: the file and the cache as one state machine.
  `guardar_json_append` is `AppendRecord` and `limpiar_historial` is `Clear`.
  `json.dumps` is the function parameter `dumps`. The mtime a write leaves is a
  parameter. The state machine also states the round trip, cache coherency,
  time-to-live and idempotent-clear properties.
- **`Canon`**: `datos_a_tuple`. Pairs are sorted by key (Python's `str` order),
  nested dicts are handled recursively and lists are converted shallowly. A
  non-dict record falls back to a digest; the digest function is a parameter.
- **`Stats`**: `calcular_estadisticas_sin_cache`, including the
  `Counter.most_common(1)` tie-break (the first key met wins). Also the summary
  view's fallback to it: `calcular_estadisticas_cached` is fed the output of
  `datos_a_tuple`, which has no `.get`, so it always raises on a non-empty
  list.

Three places where the code does not do what it evidently intends are listed
under Findings. `Cache.Variant` selects the code as written (`AsWritten`) or
the intended behaviour (`Corrected`) at those three places. Both readings are
modelled, and lemmas are proved about each.

Behaviours of the code worth knowing:
- The append overwrites the closing `]` and does not write it back (see
  Findings).
- The new-file branch neither invalidates the cache nor returns `True`.
- When the backward scan finds no `]` past offset 0, the record is written at
  offset 0, and no failure is reported.
- The comma test looks only at the byte just before `]`.
- `get` treats a cached empty list as a miss.
- `limpiar_historial` invalidates the cache only when a file existed. If the file
  was deleted by someone else, a snapshot taken before survives the call.
- The statistics count is 0 when no record has a numeric area. Otherwise it
  is the number of all records, with or without a numeric area.
- The statistics are never memoised: the cached path always raises and the
  uncached one runs.

## Model

| member | source | states |
|---|---|---|
| PyJson.OrEmpty | utils_json.py:115-120 | `default or []`: a truthy default is returned as is, any falsy one becomes the empty list |
| PyJson.Lookup | utils_json.py:401-406 | `d.get(key)` is absent exactly when no entry has that key, and otherwise is the value of an entry with that key |
| Cache.Invalidate | utils_json.py:34-39 | after `invalidar` there is no snapshot, no stamp and no recorded mtime |
| Cache.StampFor | utils_json.py:70 | as written the stamp is the bound method object; as intended it is the current clock reading |
| Cache.IsValid | utils_json.py:42-55 | false without snapshot or stamp; false when the file exists and its mtime differs from the recorded one (a recorded `None` included); the mtime test is skipped for an absent file; a method-object stamp that gets past those tests raises `TypeError`; otherwise true iff less than 60 s have passed, strictly |
| Cache.Get | utils_json.py:58-63 | raises exactly when `is_valid` raises; a hit happens iff the cache is valid and the snapshot non-empty (a cached `[]` is always a miss), and a hit returns the snapshot |
| Cache.Set | utils_json.py:66-72 | raises `AttributeError` exactly for a truthy value that is neither list nor dict; otherwise it stores the value (`[]` for a falsy one), stamps it, and records the mtime only when the file exists, keeping the old one otherwise |
| Cache.InvalidateIdempotent | utils_json.py:34-63 | invalidating twice is invalidating once, and an invalidated cache is never valid and always misses |
| Cache.TtlExpiry | utils_json.py:42-72 | with the intended stamp, a non-empty list or dict stored at `t` on a file that has not changed is served exactly while `now < t + 60` and is a miss from then on |
| Cache.StampRaises | utils_json.py:54-72 | as written, after a `set` every `get` on the unchanged or a deleted file raises `TypeError`, whatever the clock says |
| Loader.Load | utils_json.py:83-120 | a `TypeError` from `get` escapes; a hit returns the snapshot without reading the file; a miss on an absent file gives `default or []`; a read or decode failure gives `default or []` and leaves the cache alone; decoded data is returned and, with the cache on, stored via `set` (a failing `set` is caught, giving `default or []`) |
| Text.Lines | utils_json.py:174 | `split('\n')` always gives at least one piece, even for the empty text |
| Text.LinesJoin | utils_json.py:174-175 | no piece of `split('\n')` holds a newline, and joining the pieces with newlines restores the text |
| Text.Indent | utils_json.py:174-175 | re-indenting a text of whitespace only leaves it unchanged, and a single non-blank line gets four spaces in front |
| Text.IndentLines | utils_json.py:175 | one output line per input line, each prefixed by four spaces unless it is blank |
| Text.IndentKeepsLines | utils_json.py:174-175 | re-indentation keeps the number of lines, and line `i` of the result is line `i` of the record, indented unless blank |
| Text.IndentKeepsLastChar | utils_json.py:174-175 | re-indentation keeps the record's last character when that character is not blank |
| Text.IndentLacks | utils_json.py:174-175 | re-indentation adds only spaces and newlines: any other character missing from the record is missing from the result |
| Append.ScanFrom | utils_json.py:153-159 | the backward scan from offset `p` stops at the greatest offset at or below `p` holding `]` and never examines offset 0 (it ends there if it finds no `]`) |
| Append.ClosingBracket | utils_json.py:149-162 | the write offset is inside the file; if it is not 0 it holds `]`, and no `]` lies after it |
| Append.Overwrite | utils_json.py:147-177 | writing in `r+` mode keeps the prefix, replaces the covered bytes with the written ones and keeps every byte beyond them |
| Append.NeedsComma | utils_json.py:162-168 | no comma when the `]` sits at offset 0 or 1, nor when the byte before it is `[` (an array still empty); a comma whenever the `]` is past offset 1 and follows anything else |
| Append.Payload | utils_json.py:162-177 | `",\n"` is written iff the offset is past 1 and the byte before it is not `[`, then the re-indented record, then `"\n"` (as written) or `"\n]"` (as intended) |
| Append.Splice | utils_json.py:145-177 | the existing-file append leaves the text before the scan offset, puts the payload at the offset and keeps the old bytes beyond the payload; nothing is truncated, so the length is exactly the larger of the old length and the end of the payload |
| Append.LogTextScan | utils_json.py:149-168 | on a file in the log layout the scan stops at the final `]` and a comma is written |
| Append.SpliceOnLog | utils_json.py:149-177 | on a file in the log layout the append keeps everything before the final `]` and writes `",\n"`, the re-indented record and the tail there |
| Append.CorrectedSpliceExtendsLog | utils_json.py:162-177 | with the closing `]` re-written, appending to the log of `records` gives exactly the log of `records + [d]` |
| Append.AsWrittenSpliceDropsBracket | utils_json.py:176-177 | as written, the append produces the extended log minus its final `]` |
| Append.AsWrittenSecondAppendBreaksArray | utils_json.py:149-177 | the one-record log ends in `]`; after a second append as written, of a record ending in a non-blank character other than `]`, no `]` is followed only by whitespace, so the text is not a JSON array |
| Append.NoBracketOverwritesStart | utils_json.py:152-159 | when no `]` lies past offset 0 the scan ends at 0 and the record is written over the start of the file, `[` included |
| Append.AsWrittenThirdAppendOverwritesStart | utils_json.py:141-177 | after two appends as written of records without `]`, the third record overwrites offset 0 onwards |
| Append.SecondAppendText | utils_json.py:141-177 | the exact text after creating the file and appending a second record as written |
| History.AppendRecord | utils_json.py:127-184 | a missing or empty file becomes the serialisation of `[dato]`, and as written the call returns `None` and keeps the cache; an existing file gets the in-place splice, the call returns `True` and the cache is invalidated; either way the file exists afterwards with the new mtime |
| History.Clear | utils_json.py:474-496 | reports `True` iff a file existed, and then the file is gone and the cache invalidated; otherwise it reports `False` and changes nothing |
| History.CorrectedAppendsBuildLog | utils_json.py:141-181 | with the intended append, appending records one by one to a missing or empty file leaves exactly the log of those records in order, and an empty cache |
| History.CreateLog | utils_json.py:141-144 | the intended file creation writes the one-record log and invalidates |
| History.ExtendLog | utils_json.py:145-181 | the intended in-place append turns the log of `records` into the log of `records + [dumps(x)]` and invalidates |
| History.CorrectedRoundTrip | utils_json.py:96-181 | after appending `xs` with the intended append, a load returns exactly `xs`, in order, whatever the clock, default or cache setting |
| History.CorrectedAppendThenLoadReads | utils_json.py:96-181 | with the intended append, the load after any append misses the cache and reads the new file |
| History.AsWrittenCreateKeepsStaleSnapshot | utils_json.py:42-144 | as written, re-creating a deleted file neither invalidates nor reports success. When the new mtime equals the recorded one and the stamp of line 70 is taken as intended, the next load within the time-to-live returns the old snapshot without reading the file. With line 70 as written too, that load raises `TypeError` instead |
| History.AsWrittenSecondLoadRaises | utils_json.py:96-112 | as written, once a load has filled the cache, the next load of the unchanged file raises `TypeError` |
| History.CorrectedTtlOnLoad | utils_json.py:42-112 | with the intended stamp, a load at `t` of a non-empty list makes every load of the unchanged file before `t + 60` a hit without a read, and every later one a read |
| History.AsWrittenTwoAppendsBreakLog | utils_json.py:141-177 | creating the log and appending a dict as written leaves a text that a JSON parser cannot read as a list |
| History.ClearIdempotent | utils_json.py:474-496 | a second clear reports `False` and changes nothing, and a load afterwards gives `default or []` without reading |
| Canon.Insert | utils_json.py:257 | inserting into a key-sorted run keeps it sorted, adds exactly that item, and keeps it strictly sorted when the key is new |
| Canon.SortItems | utils_json.py:257 | `sorted(d.items())` is key-ordered, has the same items and length, and is strictly ascending when the keys are distinct |
| Canon.SortedUnique | utils_json.py:257 | two strictly key-sorted sequences with the same items are equal |
| Canon.CanonValue | utils_json.py:257-263 | a dict with distinct keys becomes the strictly key-sorted tuple of its converted pairs, one per entry; a list becomes the tuple of its elements, untouched; any other value stays as it is |
| Canon.DictToTuple | utils_json.py:254-264 | `dict_to_tuple(d)` is key-ordered, one pair per entry, holds exactly the converted pairs, and is strictly ascending when the keys are distinct |
| Canon.Converted | utils_json.py:257-263 | each pair keeps its key and gets its value in canonical form, one pair per entry |
| Canon.DatosATuple | utils_json.py:251-272 | a list of dicts gives one tuple per record, and tuple `i` holds exactly record `i`'s converted pairs, strictly ascending by key; any non-dict record switches to the digest fallback |
| Canon.CanonDeepSorted | utils_json.py:254-264 | in the canonical form of a dict with distinct keys, the keys are strictly ascending at every level of nested dicts |
| Canon.DictEqSameCanon | utils_json.py:254-264 | two dicts with the same keys bound to equal values, in any insertion order and with nested dicts again compared ignoring order, get the same canonical tuple |
| Canon.RecordKeys | utils_json.py:266-267 | record lists that are pairwise equal as dicts get the same key, with each record's keys strictly ascending |
| Stats.AreaOf | utils_json.py:400-404 | a record contributes an area iff its `area` value exists and is an `int`, `float` or `bool`, and the area is that value as a number (`True` as 1, `False` as 0) |
| Stats.FiguraOf | utils_json.py:406 | a record contributes a figure iff it has a `figura` key, and the figure is the value stored under that key |
| Stats.Areas | utils_json.py:400-404 | one area per record at most; every numeric area of a record is in the list, and every area in the list is the numeric area of some record |
| Stats.Figuras | utils_json.py:406 | one figure per record at most; every record's `figura` value is in the list, and every value in the list is some record's `figura` |
| Stats.ComprehensionsSplit | utils_json.py:400-406 | the area and figure lists of a concatenation are the concatenations of the lists |
| Stats.OneRecord | utils_json.py:400-406 | a single record contributes its numeric area (or none) and its `figura` value (or none) |
| Stats.Max | utils_json.py:420 | `max` returns an element that no element exceeds |
| Stats.Min | utils_json.py:421 | `min` returns an element that exceeds no element |
| Stats.SumBounds | utils_json.py:419 | a sum of `n` terms in `[lo, hi]` lies in `[n*lo, n*hi]` |
| Stats.Mean | utils_json.py:419 | `sum(areas)/len(areas)` times the number of areas gives back their sum |
| Stats.MeanBetween | utils_json.py:419-421 | `min(areas) <= sum(areas)/len(areas) <= max(areas)` |
| Stats.Count | utils_json.py:414 | `Counter(figuras)[v]` is at most the number of figures, and positive when some figure is filed under the same key as `v` |
| Stats.CountSplit | utils_json.py:414 | the count over a concatenation is the sum of the counts |
| Stats.CountOne | utils_json.py:414 | one element counts 1 under a key exactly when `Counter` files it under that key, and 0 otherwise; with `Stats.CountSplit` this makes the count the number of occurrences |
| Stats.CountWitness | utils_json.py:414 | a positive count has a figure filed under that key behind it |
| Stats.CountRespectsKeyEq | utils_json.py:414 | values a `Counter` treats as one key have the same count |
| Stats.MostCommonFrom | utils_json.py:414 | the scan returns an index of greatest count, and every earlier index has a strictly smaller count |
| Stats.MostCommon | utils_json.py:414 | `most_common(1)[0][0]` is one of the figures and no figure is counted more often |
| Stats.MostCommonFirstOfClass | utils_json.py:414 | the chosen figure is the first occurrence of its key, and every figure before it is strictly rarer, so ties go to the key met first |
| Stats.TopFigure | utils_json.py:414 | `'ninguna'` when no record has `figura`, otherwise a most frequent figure |
| Stats.Summarise | utils_json.py:408-423 | with no numeric area the count and the three area figures are 0; otherwise the count is the number of records, min and max are areas bounding all areas, and the mean is the arithmetic mean of the areas and lies between them |
| Stats.StatsWithoutCache | utils_json.py:396-423 | a non-dict record raises `AttributeError`, an unhashable `figura` raises `TypeError`; otherwise it returns the statistics above for the numeric areas and the figures |
| Stats.CachedStats | utils_json.py:206-232 | only the empty tuple gets through (all zeros, `'ninguna'`); any other key raises, `TypeError` exactly when it cannot be hashed |
| Stats.SummaryStats | utils_json.py:355-367 | an empty list shows no statistics |
| Stats.SummaryIsUncached | utils_json.py:360-367 | for a non-empty list the summary is always the uncached statistics, exceptions included |

## Left out

- Console output (the Rich panels and tables) and the display functions
  `mostrar_json` and `mostrar_ultimos_calculos`: these are presentation only.
- `threading.Lock`: each cache operation is one atomic step.
- I/O errors. `OSError` on open, write, stat or unlink is not modelled, so
  `guardar_json_append` and `limpiar_historial` never return `False` through
  their `except` branches. A read error in `cargar_json` is part of `parse`'s
  `Failed` outcome.
- `json.load`, `json.dumps` and `hashlib.md5`. They are function parameters.
  What the proofs need of them is stated as a hypothesis:
  - `PrettyPrinter`: a one-element list is dumped in the log layout.
  - For `History.CorrectedRoundTrip` only: `parse` reads the log of the
    appended records back as exactly those records. This is assumed for that
    one log, not for every list of records.
  - `ListsEndWithBracket`: a text parses to a list only if it ends in `]`.
- Encodings. The file is taken to be ASCII (character offsets are byte offsets)
  without `\r`.
- Float semantics. Areas are exact reals, so rounding in `sum`, `/`, `max` and
  `min` is not modelled. `Stats.Max` and `Stats.Min` return the numeric value
  rather than the original `int`, `float` or `bool` object.
- The mechanics of `lru_cache`: hashing, the 128-entry LRU eviction and
  memoisation. The cached statistics path never returns for a non-empty list,
  so only its outcome is modelled.
- `obtener_fecha` and `registrar_resultado`: clock formatting, and a thin
  wrapper over the append.
- `calcu_areas.py` and `menu.py`: the geometry and the interactive menu are
  outside this model.
- The statistics input is a list. Through the summary view it could be any
  JSON value `cargar_json` returns; for a non-list the display code fails
  before the statistics matter.
- Canon.DictEqSameCanon: it assumes `DictEq`, which is stricter than Python's `==`. `1`, `1.0` and `True` are not treated as equal, and dicts inside lists are compared in order. Python dicts that are equal only through those rules are not covered.
- Stats.SummaryStats: its contract states only the empty case. The non-empty
  case is stated by `Stats.SummaryIsUncached`.

## Findings

| source | as written | input that shows it | evidently intended | confidence | as-written member | corrected member |
|---|---|---|---|---|---|---|
| utils_json.py:70 | `_timestamp = datetime.now().timestamp` stores the method, so the subtraction at line 54 raises `TypeError`, and nothing in `get` or `cargar_json` catches it | two `cargar_json()` calls on an existing, unchanged `areas.json`: the second raises | `datetime.now().timestamp()`, giving the 60-second time-to-live | not executed | Cache.StampRaises | Cache.TtlExpiry |
| utils_json.py:176-177 | the in-place append overwrites the closing `]` and writes only `"\n"` after the record | creating the file and then appending a second dict: the file ends `}\n` and is no longer an array; with a third append, the record overwrites offset 0 | write `"\n]"` so the file stays one array | not executed | Append.AsWrittenSecondAppendBreaksArray | Append.CorrectedSpliceExtendsLog |
| utils_json.py:141-144 | the new-file branch falls off the `try`, returns `None` and does not invalidate the cache | cache filled from a file, file deleted by another process, then an append re-creates it with the same coarse mtime: the cache is not invalidated and the call returns `None`. With line 70 fixed, the next load returns the old snapshot; with line 70 as written, it raises `TypeError` | return `True` and invalidate, as the other branch does at 179-181 | not executed | History.AsWrittenCreateKeepsStaleSnapshot | History.CorrectedAppendThenLoadReads |

=== FILE: append.dfy ===
/**
 The in-place append of `guardar_json_append` on an existing, non-empty log:
 scan backwards for the last `]`, decide whether a separating comma is
 needed, and overwrite the file from that offset on (`r+` mode: nothing is
 truncated, bytes past the written ones stay). The text is taken to be
 ASCII, so character offsets are byte offsets.
 */
module Append {
  import opened Text
  import opened Cache

  /** The backward scan started at offset `p`: offsets `p` down to 1 are
      examined and the first `]` met stops it; offset 0 is never examined. */
  function ScanFrom(text: string, p: nat): (pos: nat)
    requires p < |text|
    ensures pos <= p
    ensures pos > 0 ==> text[pos] == ']'
    ensures forall k :: pos < k <= p ==> text[k] != ']'
    decreases p
  {
    if p == 0 then 0
    else if text[p] == ']' then p
    else ScanFrom(text, p - 1)
  }

  /** The offset the append writes at: the greatest offset from 1 on holding
      `]`, or 0 when there is none (or the file is one byte long). */
  function ClosingBracket(text: string): (pos: nat)
    requires |text| >= 1
    ensures pos < |text|
    ensures pos > 0 ==> text[pos] == ']'
    ensures forall k :: pos < k < |text| ==> text[k] != ']'
  {
    ScanFrom(text, |text| - 1)
  }

  /** Writing `w` at offset `pos` of a file opened with `r+`: the prefix is
      kept, `w` replaces the bytes it covers, and whatever lay beyond its end
      is kept too. */
  function Overwrite(text: string, pos: nat, w: string): (r: string)
    requires pos <= |text|
    ensures |r| == if pos + |w| < |text| then |text| else pos + |w|
    ensures r[..pos] == text[..pos]
    ensures r[pos..pos + |w|] == w
    ensures forall k :: pos + |w| <= k < |text| ==> r[k] == text[k]
  {
    text[..pos] + w + (if pos + |w| < |text| then text[pos + |w|..] else "")
  }

  /** A comma goes in front of the record when the `]` sits past offset 1
      and the character before it is not `[`: an array that is still `[]`
      gets its first element without one. */
  predicate NeedsComma(text: string, pos: nat): (b: bool)
    requires pos < |text|
    ensures pos >= 1 && text[pos - 1] == '[' ==> !b
    ensures pos <= 1 ==> !b
    ensures pos >= 2 && text[pos - 1] != '[' ==> b
  {
    pos > 1 && text[pos - 1] != '['
  }

  /** What follows the indented record: the source writes a newline only;
      the evident intent re-closes the array. */
  function Tail(v: Variant): string {
    match v
    case AsWritten => "\n"
    case Corrected => "\n]"
  }

  /** Everything written at the scan offset: optional `",\n"`, the indented
      serialisation of the record, and the tail. */
  function Payload(text: string, pos: nat, record: string, v: Variant): (w: string)
    requires pos < |text|
    ensures NeedsComma(text, pos) ==> w == ",\n" + Indent(record) + Tail(v)
    ensures !NeedsComma(text, pos) ==> w == Indent(record) + Tail(v)
  {
    (if NeedsComma(text, pos) then ",\n" else "") + Indent(record) + Tail(v)
  }

  /** The existing-file branch of the append: `record` is `json.dumps(dato, indent=4)`. */
  function Splice(text: string, record: string, v: Variant): (r: string)
    requires |text| >= 1
    ensures var pos := ClosingBracket(text); var w := Payload(text, pos, record, v);
      && |r| == (if pos + |w| < |text| then |text| else pos + |w|)
      && r[..pos] == text[..pos]
      && r[pos..pos + |w|] == w
      && (forall k :: pos + |w| <= k < |text| ==> r[k] == text[k])
  {
    var pos := ClosingBracket(text);
    Overwrite(text, pos, Payload(text, pos, record, v))
  }

  function IndentAll(records: seq<string>): (r: seq<string>)
    ensures |r| == |records|
    ensures forall i :: 0 <= i < |records| ==> r[i] == Indent(records[i])
  {
    seq(|records|, i requires 0 <= i < |records| => Indent(records[i]))
  }

  /** The log as the append path keeps it: each record indented, records
      separated by `"\n,\n"`, the whole inside `"[\n"` … `"\n]"`. For one
      record this is exactly `json.dump([dato], f, indent=4)`. */
  function LogText(records: seq<string>): string {
    "[\n" + JoinWith("\n,\n", IndentAll(records)) + "\n]"
  }

  /** The text's last non-whitespace character is `]`, as it is for every
      JSON array (section 2 of RFC 8259 allows only whitespace after it). */
  predicate EndsWithBracket(t: string) {
    exists i :: 0 <= i < |t| && t[i] == ']' && forall k :: i < k < |t| ==> IsSpace(t[k])
  }

  lemma LogTextShape(records: seq<string>)
    ensures var t := LogText(records);
      && |t| >= 4 && t[|t| - 1] == ']' && t[|t| - 2] == '\n'
      && t[..|t| - 1] == "[\n" + JoinWith("\n,\n", IndentAll(records)) + "\n"
  {
    var t := LogText(records);
    assert t[..|t| - 1] == "[\n" + JoinWith("\n,\n", IndentAll(records)) + "\n";
  }

  /** On a well-formed log the scan stops at the final byte and a comma is
      written. */
  lemma LogTextScan(records: seq<string>)
    ensures var t := LogText(records);
      ClosingBracket(t) == |t| - 1 && NeedsComma(t, |t| - 1)
  {
    LogTextShape(records);
  }

  /** When the scan stops at the final byte the payload replaces that byte
      and nothing of the old text survives past it. */
  lemma SpliceAtEnd(text: string, record: string, v: Variant)
    requires |text| >= 1 && ClosingBracket(text) == |text| - 1
    ensures Splice(text, record, v) == text[..|text| - 1] + Payload(text, |text| - 1, record, v)
  {
  }

  /** The append on a log in the layout: everything up to the final `]` is
      kept, then the comma, the re-indented record and the tail. */
  lemma SpliceOnLog(records: seq<string>, d: string, v: Variant)
    ensures Splice(LogText(records), d, v)
      == "[\n" + JoinWith("\n,\n", IndentAll(records)) + "\n" + (",\n" + Indent(d) + Tail(v))
  {
    var t := LogText(records);
    LogTextShape(records);
    LogTextScan(records);
    SpliceAtEnd(t, d, v);
  }

  /** The log with one more record, spelled out. */
  lemma LogTextSnoc(records: seq<string>, d: string)
    requires |records| >= 1
    ensures LogText(records + [d])
      == "[\n" + (JoinWith("\n,\n", IndentAll(records)) + "\n,\n" + Indent(d)) + "\n]"
  {
    assert IndentAll(records + [d]) == IndentAll(records) + [Indent(d)];
    JoinAppend("\n,\n", IndentAll(records), Indent(d));
  }

  lemma RegroupLog(j: string, i: string)
    ensures "[\n" + j + "\n" + (",\n" + i + "\n]") == "[\n" + (j + "\n,\n" + i) + "\n]"
  {
  }

  /** The corrected append turns the log of `records` into the log of
      `records + [d]`: the file stays one JSON array in the same layout. */
  lemma CorrectedSpliceExtendsLog(records: seq<string>, d: string)
    requires |records| >= 1
    ensures Splice(LogText(records), d, Corrected) == LogText(records + [d])
  {
    SpliceOnLog(records, d, Corrected);
    LogTextSnoc(records, d);
    RegroupLog(JoinWith("\n,\n", IndentAll(records)), Indent(d));
  }

  /** The append as written produces the intended text minus its closing
      `]`: the `]` it overwrote is never put back. */
  lemma AsWrittenSpliceDropsBracket(records: seq<string>, d: string)
    requires |records| >= 1
    ensures Splice(LogText(records), d, AsWritten) + "]" == LogText(records + [d])
  {
    var head := "[\n" + JoinWith("\n,\n", IndentAll(records)) + "\n";
    SpliceOnLog(records, d, AsWritten);
    SpliceOnLog(records, d, Corrected);
    assert head + (",\n" + Indent(d) + "\n") + "]" == head + (",\n" + Indent(d) + "\n]");
    CorrectedSpliceExtendsLog(records, d);
  }

  /** After the second append as written, the file no longer ends in `]` and
      so is no longer a JSON array, for any record whose serialisation ends
      in a non-blank character other than `]` (a dict ends in `}`). */
  lemma AsWrittenSecondAppendBreaksArray(first: string, second: string)
    requires |second| > 0 && !IsSpace(second[|second| - 1]) && second[|second| - 1] != ']'
    ensures EndsWithBracket(LogText([first]))
    ensures !EndsWithBracket(Splice(LogText([first]), second, AsWritten))
  {
    var t := LogText([first]);
    LogTextShape([first]);
    assert t[|t| - 1] == ']';
    var r := Splice(t, second, AsWritten);
    var ind := Indent(second);
    IndentKeepsLastChar(second);
    SecondAppendText(first, second);
    assert r[|r| - 1] == '\n' && r[|r| - 2] == ind[|ind| - 1];
    BlankTailBreaks(r);
  }

  /** A text whose last character is not `]` and whose second-to-last is
      neither blank nor `]` does not end in `]`. */
  lemma BlankTailBreaks(r: string)
    requires |r| >= 2 && r[|r| - 1] != ']'
    requires !IsSpace(r[|r| - 2]) && r[|r| - 2] != ']'
    ensures !EndsWithBracket(r)
  {
    forall i | 0 <= i < |r| && r[i] == ']'
      ensures exists k :: i < k < |r| && !IsSpace(r[k])
    {
      assert i < |r| - 2 && !IsSpace(r[|r| - 2]);
    }
  }

  /** When no `]` is left past offset 0 (as after two appends of records
      that hold none), the scan falls to offset 0 and the new record
      overwrites the start of the file, opening `[` included. */
  lemma NoBracketOverwritesStart(text: string, record: string, v: Variant)
    requires |text| >= 1
    requires forall k :: 1 <= k < |text| ==> text[k] != ']'
    ensures ClosingBracket(text) == 0
    ensures var w := Indent(record) + Tail(v);
      |Splice(text, record, v)| >= |w| && Splice(text, record, v)[..|w|] == w
  {
  }

  /** The third append as written: once two records without a `]` in their
      serialisations have been appended to a fresh log, no `]` is left past
      offset 0, so the third record is written over the start of the file. */
  lemma AsWrittenThirdAppendOverwritesStart(first: string, second: string, third: string)
    requires ']' !in first && ']' !in second
    ensures var t2 := Splice(LogText([first]), second, AsWritten);
      && ClosingBracket(t2) == 0
      && |Splice(t2, third, AsWritten)| >= |Indent(third)| + 1
      && Splice(t2, third, AsWritten)[..|Indent(third)| + 1] == Indent(third) + "\n"
  {
    var t2 := Splice(LogText([first]), second, AsWritten);
    assert ']' !in t2 by {
      SecondAppendText(first, second);
      IndentLacks(first, ']');
      IndentLacks(second, ']');
    }
    NoBracketOverwritesStart(t2, third, AsWritten);
  }

  lemma SecondAppendText(first: string, second: string)
    ensures Splice(LogText([first]), second, AsWritten)
      == "[\n" + Indent(first) + "\n" + (",\n" + Indent(second) + "\n")
  {
    SpliceOnLog([first], second, AsWritten);
    assert JoinWith("\n,\n", IndentAll([first])) == Indent(first);
  }
}

=== FILE: cache.dfy ===
/**
 The read cache in front of the log (`CacheJSON`): a snapshot of the parsed
 file, the moment it was taken, and the file's modification time at that
 moment. Each operation is one atomic step (the source guards them with a
 lock); the clock and the file's current state are parameters.
 */
module Cache {
  import opened PyJson

  /** Seconds a snapshot stays fresh. */
  const TTL: real := 60.0

  /** What `_timestamp` holds. `set` stores the bound method
      `datetime.now().timestamp` itself rather than calling it; that object
      is `MethodObj`. */
  datatype Stamp = NoStamp | At(t: real) | MethodObj

  /** Which reading of the code a step follows: the code as written, or the
      evidently intended behaviour (stamp with the current time, re-close the
      array on append, report and invalidate on file creation). */
  datatype Variant = AsWritten | Corrected

  /** The log file as `Path.exists()` / `stat()` / `read()` see it. */
  datatype FileState = Absent | Present(text: string, mtime: real)

  datatype CacheState = CacheState(snapshot: Option<Json>, stamp: Stamp, mtime: Option<real>)

  const Empty: CacheState := CacheState(None, NoStamp, None)

  /** `invalidar`: forget snapshot, stamp and recorded mtime. */
  function Invalidate(c: CacheState): (r: CacheState)
    ensures r.snapshot.None? && r.stamp.NoStamp? && r.mtime.None?
  {
    Empty
  }

  /** The stamp `set` records at clock reading `now`. */
  function StampFor(v: Variant, now: real): (s: Stamp)
    ensures v == AsWritten ==> s.MethodObj?
    ensures v == Corrected ==> s == At(now)
  {
    match v
    case AsWritten => MethodObj
    case Corrected => At(now)
  }

  /** `is_valid`: the snapshot is usable at clock reading `now`. Subtracting
      a bound method from a float raises `TypeError`. */
  function IsValid(c: CacheState, f: FileState, now: real): (r: Result<bool>)
    ensures c.snapshot.None? || c.stamp.NoStamp? ==> r == Ok(false)
    ensures f.Present? && c.mtime != Some(f.mtime) ==> r == Ok(false)
    ensures r.Raised? <==>
      c.snapshot.Some? && c.stamp.MethodObj? && (f.Absent? || c.mtime == Some(f.mtime))
    ensures r.Raised? ==> r.error == TypeError
    ensures r == Ok(true) <==>
      && c.snapshot.Some? && c.stamp.At?
      && (f.Absent? || c.mtime == Some(f.mtime))
      && now - c.stamp.t < TTL
  {
    if c.snapshot.None? || c.stamp.NoStamp? then Ok(false)
    else if f.Present? && c.mtime != Some(f.mtime) then Ok(false)
    else
      match c.stamp
      case MethodObj => Raised(TypeError)
      case At(t) => Ok(now - t < TTL)
  }

  /** `get`: a copy of the snapshot when it is valid and non-empty; `None`
      (a miss) otherwise, so a cached `[]` is always a miss. */
  function Get(c: CacheState, f: FileState, now: real): (r: Result<Option<Json>>)
    ensures r.Raised? <==> IsValid(c, f, now).Raised?
    ensures r.Ok? && r.value.Some? <==> IsValid(c, f, now) == Ok(true) && Truthy(c.snapshot.value)
    ensures r.Ok? && r.value.Some? ==> r.value.value == c.snapshot.value
  {
    match IsValid(c, f, now)
    case Raised(e) => Raised(e)
    case Ok(valid) =>
      if valid && Truthy(c.snapshot.value) then Ok(Some(c.snapshot.value)) else Ok(None)
  }

  /** `datos.copy() if datos else []` fails on a truthy value that is neither
      a list nor a dict (`int`, `float`, `str` have no `copy`). */
  predicate Copyable(datos: Json) {
    !Truthy(datos) || datos.JList? || datos.JDict?
  }

  /** `set`: store a copy of `datos` (`[]` for a falsy value), stamp it, and
      record the file's mtime when the file exists (otherwise keep the old
      record). */
  function Set(c: CacheState, datos: Json, f: FileState, now: real, v: Variant): (r: Result<CacheState>)
    ensures r.Raised? <==> !Copyable(datos)
    ensures r.Raised? ==> r.error == AttributeError
    ensures r.Ok? ==> r.value.snapshot == Some(if Truthy(datos) then datos else JList([]))
    ensures r.Ok? ==> r.value.stamp == StampFor(v, now)
    ensures r.Ok? && f.Present? ==> r.value.mtime == Some(f.mtime)
    ensures r.Ok? && f.Absent? ==> r.value.mtime == c.mtime
  {
    if !Copyable(datos) then Raised(AttributeError)
    else
      Ok(CacheState(
        Some(if Truthy(datos) then datos else JList([])),
        StampFor(v, now),
        if f.Present? then Some(f.mtime) else c.mtime))
  }

  /** Invalidation is idempotent, and an invalidated cache is never valid. */
  lemma InvalidateIdempotent(c: CacheState, f: FileState, now: real)
    ensures Invalidate(Invalidate(c)) == Invalidate(c)
    ensures IsValid(Invalidate(c), f, now) == Ok(false)
    ensures Get(Invalidate(c), f, now) == Ok(None)
  {
  }

  /** With the stamp taken as intended, a snapshot of a list or dict that
      the file has not changed under is served exactly while it is younger
      than the time-to-live, and is a miss from then on. */
  lemma TtlExpiry(c: CacheState, datos: Json, f: FileState, t: real, now: real)
    requires Truthy(datos) && (datos.JList? || datos.JDict?)
    ensures Set(c, datos, f, t, Corrected).Ok?
    ensures var c' := Set(c, datos, f, t, Corrected).value;
      && (now < t + TTL ==> Get(c', f, now) == Ok(Some(datos)))
      && (now >= t + TTL ==> Get(c', f, now) == Ok(None))
  {
  }

  /** As written, once `set` has run every later `get` on an unchanged (or
      deleted) file raises `TypeError` whatever the clock says; only a
      changed mtime turns it into an ordinary miss. */
  lemma StampRaises(c: CacheState, datos: Json, f: FileState, g: FileState, t: real, now: real)
    requires Copyable(datos)
    requires g == f || g.Absent?
    ensures Set(c, datos, f, t, AsWritten).Ok?
    ensures Get(Set(c, datos, f, t, AsWritten).value, g, now) == Raised(TypeError)
  {
  }
}

=== FILE: canon.dfy ===
/**
 `datos_a_tuple`: a hashable, order-independent key for a list of records.
 Every dict becomes the tuple of its `(key, value)` pairs sorted by key,
 nested dicts recursively, lists shallowly (`tuple(v)`); when a record is
 not a dict the key falls back to a digest of the serialised list.
 */
module Canon {
  import opened PyJson

  datatype Canon =
    | CItems(items: seq<Item>)   // a dict: `tuple(sorted pairs)`
    | CTuple(elems: seq<Json>)   // a list: `tuple(v)`, elements untouched
    | CScalar(value: Json)       // anything else, as is

  datatype Item = Item(key: string, value: Canon)

  /** The result of `datos_a_tuple`: one canonical tuple per record, or the
      one-element tuple holding the hex digest (`hashlib.md5`, a parameter). */
  datatype TupleKey = Records(records: seq<seq<Item>>) | Digest(hex: string)

  /** Python's `<` on `str`: lexicographic by code point. */
  predicate StrLt(a: string, b: string)
    decreases |a|
  {
    |b| > 0 && (|a| == 0 || a[0] < b[0] || (a[0] == b[0] && StrLt(a[1..], b[1..])))
  }

  lemma {:induction false} StrLtIrreflexive(a: string)
    ensures !StrLt(a, a)
  {
    if |a| > 0 {
      StrLtIrreflexive(a[1..]);
    }
  }

  lemma {:induction false} StrLtTransitive(a: string, b: string, c: string)
    requires StrLt(a, b) && StrLt(b, c)
    ensures StrLt(a, c)
    decreases |a|
  {
    if |a| > 0 && a[0] == b[0] && b[0] == c[0] {
      StrLtTransitive(a[1..], b[1..], c[1..]);
    }
  }

  lemma {:induction false} StrLtTotal(a: string, b: string)
    requires a != b
    ensures StrLt(a, b) || StrLt(b, a)
    decreases |a|
  {
    if |a| > 0 && |b| > 0 && a[0] == b[0] {
      assert a == [a[0]] + a[1..] && b == [b[0]] + b[1..];
      StrLtTotal(a[1..], b[1..]);
    }
  }

  lemma StrLtAsymmetric(a: string, b: string)
    requires StrLt(a, b)
    ensures !StrLt(b, a)
  {
    if StrLt(b, a) {
      StrLtTransitive(a, b, a);
      StrLtIrreflexive(a);
    }
  }

  /** Python's `<=` on `str`. */
  predicate StrLe(a: string, b: string) {
    a == b || StrLt(a, b)
  }

  lemma StrLeTransitive(a: string, b: string, c: string)
    requires StrLe(a, b) && StrLe(b, c)
    ensures StrLe(a, c)
  {
    if a != b && b != c {
      StrLtTransitive(a, b, c);
    }
  }

  lemma StrLtLe(a: string, b: string, c: string)
    requires StrLt(a, b) && StrLe(b, c)
    ensures StrLt(a, c)
  {
    if b != c {
      StrLtTransitive(a, b, c);
    }
  }

  predicate Sorted(s: seq<Item>) {
    forall i, j :: 0 <= i < j < |s| ==> StrLe(s[i].key, s[j].key)
  }

  /** Keys strictly ascending (which also makes them distinct). */
  predicate StrictlySorted(s: seq<Item>) {
    forall i, j :: 0 <= i < j < |s| ==> StrLt(s[i].key, s[j].key)
  }

  predicate ItemKeysDistinct(s: seq<Item>) {
    forall i, j :: 0 <= i < j < |s| ==> s[i].key != s[j].key
  }

  /** A key no greater than the head of a sorted run is no greater than any
      of its keys (strictly less when it is strictly less than the head). */
  lemma BelowHead(k: string, s: seq<Item>)
    requires |s| > 0 && Sorted(s) && StrLe(k, s[0].key)
    ensures forall j :: 0 <= j < |s| ==> StrLe(k, s[j].key)
    ensures StrLt(k, s[0].key) ==> forall j :: 0 <= j < |s| ==> StrLt(k, s[j].key)
  {
    forall j | 0 <= j < |s| ensures StrLe(k, s[j].key) {
      StrLeTransitive(k, s[0].key, s[j].key);
    }
    if StrLt(k, s[0].key) {
      forall j | 0 <= j < |s| ensures StrLt(k, s[j].key) {
        StrLtLe(k, s[0].key, s[j].key);
      }
    }
  }

  /** The properties `Insert` promises, for an insertion result `r`. */
  ghost predicate InsertedInto(x: Item, s: seq<Item>, r: seq<Item>) {
    && Sorted(r)
    && |r| == |s| + 1
    && (forall y :: y in r <==> y == x || y in s)
    && (StrictlySorted(s) && (forall y :: y in s ==> y.key != x.key) ==> StrictlySorted(r))
  }

  lemma InsertAtHead(x: Item, s: seq<Item>)
    requires Sorted(s) && |s| > 0 && StrLe(x.key, s[0].key)
    ensures InsertedInto(x, s, [x] + s)
  {
    BelowHead(x.key, s);
    if StrictlySorted(s) && (forall y :: y in s ==> y.key != x.key) {
      assert s[0] in s;
      assert StrLt(x.key, s[0].key);
    }
  }

  lemma InsertBehindHead(x: Item, s: seq<Item>, rest: seq<Item>)
    requires Sorted(s) && |s| > 0 && StrLt(s[0].key, x.key)
    requires InsertedInto(x, s[1..], rest)
    ensures InsertedInto(x, s, [s[0]] + rest)
  {
    HeadBelowTail(s);
    ConsSorted(s[0], rest);
    assert s == [s[0]] + s[1..];
    if StrictlySorted(s) && (forall y :: y in s ==> y.key != x.key) {
      assert StrictlySorted(s[1..]) && forall y :: y in s[1..] ==> y in s;
      ConsStrict(s[0], rest);
    }
  }

  /** In a sorted run the head's key is at most every later key, and
      strictly less when the run is strictly sorted. */
  lemma HeadBelowTail(s: seq<Item>)
    requires Sorted(s) && |s| > 0
    ensures forall y :: y in s[1..] ==> StrLe(s[0].key, y.key)
    ensures StrictlySorted(s) ==> forall y :: y in s[1..] ==> StrLt(s[0].key, y.key)
  {
    forall y | y in s[1..] ensures StrLe(s[0].key, y.key) && (StrictlySorted(s) ==> StrLt(s[0].key, y.key)) {
      var k :| 0 <= k < |s[1..]| && s[1..][k] == y;
      assert s[k + 1] == y;
    }
  }

  lemma ConsSorted(h: Item, rest: seq<Item>)
    requires Sorted(rest) && forall y :: y in rest ==> StrLe(h.key, y.key)
    ensures Sorted([h] + rest)
  {
    var r := [h] + rest;
    forall i, j | 0 <= i < j < |r| ensures StrLe(r[i].key, r[j].key) {
      assert r[j] == rest[j - 1] && r[j] in rest;
      if i > 0 {
        assert r[i] == rest[i - 1];
      }
    }
  }

  lemma ConsStrict(h: Item, rest: seq<Item>)
    requires StrictlySorted(rest) && forall y :: y in rest ==> StrLt(h.key, y.key)
    ensures StrictlySorted([h] + rest)
  {
    var r := [h] + rest;
    forall i, j | 0 <= i < j < |r| ensures StrLt(r[i].key, r[j].key) {
      assert r[j] == rest[j - 1] && r[j] in rest;
      if i > 0 {
        assert r[i] == rest[i - 1];
      }
    }
  }

  function Insert(x: Item, s: seq<Item>): (r: seq<Item>)
    requires Sorted(s)
    ensures InsertedInto(x, s, r)
  {
    if |s| == 0 then [x]
    else if StrLe(x.key, s[0].key) then
      InsertAtHead(x, s);
      [x] + s
    else
      StrLtTotal(x.key, s[0].key);
      var rest := Insert(x, s[1..]);
      InsertBehindHead(x, s, rest);
      [s[0]] + rest
  }

  /** `sorted(items)`: ascending by key, the same items, and strictly
      ascending when the keys are distinct (as a dict's always are). */
  function SortItems(s: seq<Item>): (r: seq<Item>)
    ensures Sorted(r)
    ensures |r| == |s|
    ensures forall y :: y in r <==> y in s
    ensures ItemKeysDistinct(s) ==> StrictlySorted(r)
  {
    if |s| == 0 then []
    else
      var rest := SortItems(s[1..]);
      assert ItemKeysDistinct(s) ==> forall y :: y in rest ==> y.key != s[0].key;
      Insert(s[0], rest)
  }

  /** Two strictly sorted sequences with the same items are the same
      sequence: the sorted form does not remember where it came from. */
  lemma {:induction false} SortedUnique(a: seq<Item>, b: seq<Item>)
    requires StrictlySorted(a) && StrictlySorted(b) && |a| == |b|
    requires forall y :: y in a <==> y in b
    ensures a == b
  {
    if |a| > 0 {
      SameHead(a, b);
      SameTailItems(a, b);
      SortedUnique(a[1..], b[1..]);
      assert a == [a[0]] + a[1..] && b == [b[0]] + b[1..];
    }
  }

  /** The least item of two strictly sorted runs with the same items is
      the same. */
  lemma SameHead(a: seq<Item>, b: seq<Item>)
    requires StrictlySorted(a) && StrictlySorted(b) && |a| == |b| > 0
    requires forall y :: y in a <==> y in b
    ensures a[0] == b[0]
  {
    assert a[0] in b;
    assert b[0] in a;
    var i :| 0 <= i < |a| && a[i] == b[0];
    var j :| 0 <= j < |b| && b[j] == a[0];
    if j > 0 {
      assert StrLt(a[i].key, a[0].key);
      if i > 0 {
        StrLtAsymmetric(a[0].key, a[i].key);
      } else {
        StrLtIrreflexive(a[0].key);
      }
      assert false;
    }
  }

  /** Dropping that common head leaves the same items on both sides. */
  lemma SameTailItems(a: seq<Item>, b: seq<Item>)
    requires StrictlySorted(a) && StrictlySorted(b) && |a| == |b| > 0 && a[0] == b[0]
    requires forall y :: y in a <==> y in b
    ensures forall y :: y in a[1..] <==> y in b[1..]
  {
    forall y ensures y in a[1..] ==> y in b[1..] {
      if y in a[1..] {
        TailItem(a, b, y);
      }
    }
    forall y ensures y in b[1..] ==> y in a[1..] {
      if y in b[1..] {
        TailItem(b, a, y);
      }
    }
  }

  lemma TailItem(a: seq<Item>, b: seq<Item>, y: Item)
    requires StrictlySorted(a) && |a| == |b| > 0 && a[0] == b[0]
    requires forall z :: z in a <==> z in b
    requires y in a[1..]
    ensures y in b[1..]
  {
    var k :| 1 <= k < |a| && a[k] == y;
    StrLtIrreflexive(y.key);
    assert y != b[0];
    assert a[k] in a;
    var m :| 0 <= m < |b| && b[m] == y;
    assert b[1..][m - 1] == y;
  }

  /** The value part of `dict_to_tuple`: dicts recurse, lists become tuples
      shallowly, everything else stays. */
  function CanonValue(v: Json): (c: Canon)
    ensures v.JDict? && KeysDistinct(v.entries) ==> c.CItems? && PairsOf(c.items, v.entries)
    ensures v.JList? ==> c == CTuple(v.items)
    ensures !v.JDict? && !v.JList? ==> c == CScalar(v)
    decreases v, 3
  {
    match v
    case JDict(es) => CItems(DictToTuple(es))
    case JList(xs) => CTuple(xs)
    case _ => CScalar(v)
  }

  /** The pairs of a dict, values made canonical, in insertion order. */
  function Converted(es: seq<Entry>): (r: seq<Item>)
    ensures |r| == |es|
    ensures forall i :: 0 <= i < |es| ==> r[i] == Item(es[i].key, CanonValue(es[i].value))
    decreases JDict(es), 0
  {
    seq(|es|, i requires 0 <= i < |es| => Item(es[i].key, CanonValue(es[i].value)))
  }

  /** `dict_to_tuple(d)`. The source sorts the pairs and then converts each
      value; sorting compares keys only (they are distinct), so converting
      first gives the same tuple. */
  function DictToTuple(es: seq<Entry>): (t: seq<Item>)
    ensures Sorted(t) && |t| == |es|
    ensures forall y :: y in t <==> y in Converted(es)
    ensures KeysDistinct(es) ==> PairsOf(t, es)
    decreases JDict(es), 2
  {
    assert KeysDistinct(es) ==> ItemKeysDistinct(Converted(es));
    SortItems(Converted(es))
  }

  /** `t` is the tuple of a dict with entries `es`: strictly ascending keys,
      one pair per entry, the converted pairs and no others. */
  ghost predicate PairsOf(t: seq<Item>, es: seq<Entry>)
    decreases JDict(es), 1
  {
    && StrictlySorted(t)
    && |t| == |es|
    && forall y :: y in t <==> y in Converted(es)
  }

  /** `datos_a_tuple(datos)`: the `AttributeError` of `d.items()` on a
      non-dict record sends it to the digest fallback. */
  function DatosATuple(datos: seq<Json>, digest: seq<Json> -> string): (r: TupleKey)
    ensures (forall i :: 0 <= i < |datos| ==> datos[i].JDict?) ==>
      r.Records? && |r.records| == |datos|
    ensures (exists i :: 0 <= i < |datos| && !datos[i].JDict?) ==> r == Digest(digest(datos))
    ensures r.Records? ==> forall i :: 0 <= i < |datos| && datos[i].JDict? && KeysDistinct(datos[i].entries) ==>
      PairsOf(r.records[i], datos[i].entries)
  {
    if forall i :: 0 <= i < |datos| ==> datos[i].JDict? then
      Records(seq(|datos|, i requires 0 <= i < |datos| => DictToTuple(datos[i].entries)))
    else Digest(digest(datos))
  }

  /** Every dict reachable through dict values has distinct keys (lists are
      not descended into: their elements stay as they are). */
  predicate DictsDistinct(v: Json)
    decreases v
  {
    match v
    case JDict(es) => KeysDistinct(es) && forall i :: 0 <= i < |es| ==> DictsDistinct(es[i].value)
    case _ => true
  }

  /** Keys strictly ascending at every level of the canonical form. */
  predicate DeepSorted(c: Canon)
    decreases c
  {
    match c
    case CItems(items) => StrictlySorted(items) && forall i :: 0 <= i < |items| ==> DeepSorted(items[i].value)
    case _ => true
  }

  /** The canonical form of a dict has its keys strictly ascending, and so
      do the canonical forms of all dicts nested in it. */
  lemma {:induction false} CanonDeepSorted(v: Json)
    requires DictsDistinct(v)
    ensures DeepSorted(CanonValue(v))
    decreases v
  {
    if v.JDict? {
      var es := v.entries;
      var pre := Converted(es);
      assert ItemKeysDistinct(pre);
      var items := DictToTuple(es);
      forall k | 0 <= k < |items| ensures DeepSorted(items[k].value) {
        assert items[k] in pre;
        var i :| 0 <= i < |pre| && pre[i] == items[k];
        CanonDeepSorted(es[i].value);
      }
    }
  }

  /** Dict equality up to insertion order: the same keys, bound to values
      that are equal structurally, except that dicts nested as values are
      again compared ignoring order. Unlike Python's `==` it does not equate
      `1`, `1.0` and `True`, and it compares dicts inside lists by order. */
  predicate DictEq(a: Json, b: Json)
    decreases a
  {
    if a.JDict? && b.JDict? then
      && KeysDistinct(a.entries) && KeysDistinct(b.entries)
      && |a.entries| == |b.entries|
      && (forall i :: 0 <= i < |a.entries| ==>
            (exists j :: 0 <= j < |b.entries| && b.entries[j].key == a.entries[i].key
                         && DictEq(a.entries[i].value, b.entries[j].value)))
      && (forall j :: 0 <= j < |b.entries| ==>
            (exists i :: 0 <= i < |a.entries| && a.entries[i].key == b.entries[j].key
                         && DictEq(a.entries[i].value, b.entries[j].value)))
    else a == b
  }

  /** Two dicts holding the same items, in whatever insertion order and at
      whatever depth, get the same canonical tuple. */
  lemma {:induction false} DictEqSameCanon(a: Json, b: Json)
    requires DictEq(a, b)
    ensures CanonValue(a) == CanonValue(b)
    decreases a, 2
  {
    if a.JDict? && b.JDict? {
      SameConverted(a, b);
      SortedUnique(DictToTuple(a.entries), DictToTuple(b.entries));
      CanonOfDict(a);
      CanonOfDict(b);
    }
  }

  lemma CanonOfDict(a: Json)
    requires a.JDict?
    ensures CanonValue(a) == CItems(DictToTuple(a.entries))
  {
  }

  /** Equal dicts have the same converted pairs, up to order. */
  lemma SameConverted(a: Json, b: Json)
    requires a.JDict? && b.JDict? && DictEq(a, b)
    ensures forall y :: y in Converted(a.entries) <==> y in Converted(b.entries)
    decreases a, 1
  {
    ConvertedForward(a, b);
    ConvertedBackward(a, b);
  }

  lemma {:induction false} ConvertedForward(a: Json, b: Json)
    requires a.JDict? && b.JDict? && DictEq(a, b)
    ensures forall i :: 0 <= i < |a.entries| ==> Converted(a.entries)[i] in Converted(b.entries)
    decreases a, 0
  {
    var ea, eb := a.entries, b.entries;
    var pa, pb := Converted(ea), Converted(eb);
    forall i | 0 <= i < |ea| ensures pa[i] in pb {
      var j := MatchInB(a, b, i);
      SamePair(ea[i], eb[j]);
      assert pb[j] == pa[i];
    }
  }

  lemma {:induction false} ConvertedBackward(a: Json, b: Json)
    requires a.JDict? && b.JDict? && DictEq(a, b)
    ensures forall j :: 0 <= j < |b.entries| ==> Converted(b.entries)[j] in Converted(a.entries)
    decreases a, 0
  {
    var ea, eb := a.entries, b.entries;
    var pa, pb := Converted(ea), Converted(eb);
    forall j | 0 <= j < |eb| ensures pb[j] in pa {
      var i := MatchInA(a, b, j);
      SamePair(ea[i], eb[j]);
      assert pa[i] == pb[j];
    }
  }

  /** The entry of `b` that entry `i` of `a` is equal to. */
  lemma MatchInB(a: Json, b: Json, i: nat) returns (j: nat)
    requires a.JDict? && b.JDict? && DictEq(a, b) && i < |a.entries|
    ensures j < |b.entries| && b.entries[j].key == a.entries[i].key
    ensures DictEq(a.entries[i].value, b.entries[j].value)
  {
    j :| 0 <= j < |b.entries| && b.entries[j].key == a.entries[i].key
      && DictEq(a.entries[i].value, b.entries[j].value);
  }

  /** The entry of `a` that entry `j` of `b` is equal to. */
  lemma MatchInA(a: Json, b: Json, j: nat) returns (i: nat)
    requires a.JDict? && b.JDict? && DictEq(a, b) && j < |b.entries|
    ensures i < |a.entries| && a.entries[i].key == b.entries[j].key
    ensures DictEq(a.entries[i].value, b.entries[j].value)
  {
    i :| 0 <= i < |a.entries| && a.entries[i].key == b.entries[j].key
      && DictEq(a.entries[i].value, b.entries[j].value);
  }

  /** Two entries with the same key and equal values convert to the same pair. */
  lemma SamePair(x: Entry, y: Entry)
    requires x.key == y.key && DictEq(x.value, y.value)
    ensures Item(x.key, CanonValue(x.value)) == Item(y.key, CanonValue(y.value))
    decreases x.value, 3
  {
    DictEqSameCanon(x.value, y.value);
  }

  /** Lifted to a list of records: lists whose records are pairwise equal
      dicts get the same key, one canonical tuple per record with keys
      strictly ascending. */
  lemma RecordKeys(xs: seq<Json>, ys: seq<Json>, digest: seq<Json> -> string)
    requires |xs| == |ys|
    requires forall i :: 0 <= i < |xs| ==> xs[i].JDict? && DictEq(xs[i], ys[i])
    ensures DatosATuple(xs, digest) == DatosATuple(ys, digest)
    ensures forall i :: 0 <= i < |xs| ==> StrictlySorted(DatosATuple(xs, digest).records[i])
  {
    forall i | 0 <= i < |xs|
      ensures ys[i].JDict? && DictToTuple(xs[i].entries) == DictToTuple(ys[i].entries)
      ensures StrictlySorted(DictToTuple(xs[i].entries))
    {
      DictEqSameCanon(xs[i], ys[i]);
      assert ys[i].JDict?;
      CanonOfDict(xs[i]);
      CanonOfDict(ys[i]);
    }
  }
}

=== FILE: history.dfy ===
/**
 The log subsystem as one state machine: the file (text and mtime) and the
 cache. `AppendRecord` is `guardar_json_append`, `Clear` is
 `limpiar_historial`, and `Loader.Load` is `cargar_json`; the clock reading
 and the mtime a write leaves behind are parameters, and `json.dumps` /
 `json.load` are the function parameters `dumps` / `parse`.
 */
module History {
  import opened PyJson
  import opened Text
  import opened Cache
  import opened Append
  import opened Loader

  datatype System = System(file: FileState, cache: CacheState)

  /** What `guardar_json_append` returns: the file-creation branch falls off
      the end of the `try` and returns `None`; the in-place branch returns
      `True`. (`False` needs an OS error, which the model does not raise.) */
  datatype Returned = ReturnedNone | ReturnedTrue

  datatype AppendStep = AppendStep(ret: Returned, sys: System)

  datatype ClearStep = ClearStep(deleted: bool, sys: System)

  /** `not ruta.exists() or ruta.stat().st_size == 0`. */
  predicate NoLog(f: FileState) {
    f.Absent? || |f.text| == 0
  }

  /** `guardar_json_append(dato)`, the write leaving mtime `writeTime`. */
  function AppendRecord(s: System, dato: Json, dumps: Json -> string, writeTime: real, v: Variant): (r: AppendStep)
    ensures r.sys.file.Present? && r.sys.file.mtime == writeTime
    ensures NoLog(s.file) ==> r.sys.file.text == dumps(JList([dato]))
    ensures !NoLog(s.file) ==> r.sys.file.text == Splice(s.file.text, dumps(dato), v)
    ensures NoLog(s.file) && v == AsWritten ==> r.ret == ReturnedNone && r.sys.cache == s.cache
    ensures !NoLog(s.file) || v == Corrected ==> r.ret == ReturnedTrue && r.sys.cache == Empty
  {
    if NoLog(s.file) then
      var f := Present(dumps(JList([dato])), writeTime);
      match v
      case AsWritten => AppendStep(ReturnedNone, System(f, s.cache))
      case Corrected => AppendStep(ReturnedTrue, System(f, Invalidate(s.cache)))
    else
      var f := Present(Splice(s.file.text, dumps(dato), v), writeTime);
      AppendStep(ReturnedTrue, System(f, Invalidate(s.cache)))
  }

  /** `limpiar_historial()`: delete the file and invalidate, reporting `True`,
      only when there is a file; otherwise report `False` and touch nothing. */
  function Clear(s: System): (r: ClearStep)
    ensures r.deleted <==> s.file.Present?
    ensures r.deleted ==> r.sys.file.Absent? && r.sys.cache == Empty
    ensures !r.deleted ==> r.sys == s
  {
    if s.file.Present? then ClearStep(true, System(Absent, Invalidate(s.cache)))
    else ClearStep(false, s)
  }

  /** The serialisations of a run of records. */
  function DumpAll(dumps: Json -> string, xs: seq<Json>): (r: seq<string>)
    ensures |r| == |xs|
    ensures forall i :: 0 <= i < |xs| ==> r[i] == dumps(xs[i])
  {
    seq(|xs|, i requires 0 <= i < |xs| => dumps(xs[i]))
  }

  /** `xs` appended one after the other, record `i` written at `times[i]`. */
  function AppendAll(s: System, xs: seq<Json>, times: seq<real>, dumps: Json -> string, v: Variant): System
    requires |times| == |xs|
    decreases |xs|
  {
    if |xs| == 0 then s
    else
      var n := |xs| - 1;
      AppendRecord(AppendAll(s, xs[..n], times[..n], dumps, v), xs[n], dumps, times[n], v).sys
  }

  /** `json.dumps(..., indent=4)` on a one-element list puts the element's
      own serialisation, indented one level, between `"[\n"` and `"\n]"`. */
  ghost predicate PrettyPrinter(dumps: Json -> string) {
    forall x :: dumps(JList([x])) == LogText([dumps(x)])
  }

  /** `json.load` only yields a list from a text whose last non-blank
      character is `]`. */
  ghost predicate ListsEndWithBracket(parse: string -> Decoded) {
    forall t :: parse(t).Parsed? && parse(t).value.JList? ==> EndsWithBracket(t)
  }

  /** With the corrected append, appending records one by one to a missing
      or empty file leaves exactly the log of those records, in order, and
      an invalidated cache. */
  lemma {:induction false} CorrectedAppendsBuildLog(s: System, xs: seq<Json>, times: seq<real>, dumps: Json -> string)
    requires NoLog(s.file) && PrettyPrinter(dumps)
    requires |xs| >= 1 && |times| == |xs|
    ensures AppendAll(s, xs, times, dumps, Corrected)
      == System(Present(LogText(DumpAll(dumps, xs)), times[|xs| - 1]), Empty)
  {
    var n := |xs| - 1;
    var prev := AppendAll(s, xs[..n], times[..n], dumps, Corrected);
    AppendAllLast(s, xs, times, dumps, Corrected);
    if n == 0 {
      assert prev == s;
      CreateLog(s, xs[0], dumps, times[0]);
      assert DumpAll(dumps, xs) == [dumps(xs[0])];
    } else {
      CorrectedAppendsBuildLog(s, xs[..n], times[..n], dumps);
      DumpAllLast(dumps, xs);
      ExtendLog(DumpAll(dumps, xs[..n]), xs[n], dumps, times[n], times[n - 1]);
    }
  }

  /** Appending a run is appending all but the last record, then the last. */
  lemma AppendAllLast(s: System, xs: seq<Json>, times: seq<real>, dumps: Json -> string, v: Variant)
    requires |xs| >= 1 && |times| == |xs|
    ensures var n := |xs| - 1;
      AppendAll(s, xs, times, dumps, v)
        == AppendRecord(AppendAll(s, xs[..n], times[..n], dumps, v), xs[n], dumps, times[n], v).sys
  {
  }

  lemma DumpAllLast(dumps: Json -> string, xs: seq<Json>)
    requires |xs| >= 1
    ensures DumpAll(dumps, xs[..|xs| - 1]) + [dumps(xs[|xs| - 1])] == DumpAll(dumps, xs)
  {
  }

  lemma CreateLog(s: System, x: Json, dumps: Json -> string, w: real)
    requires NoLog(s.file) && PrettyPrinter(dumps)
    ensures AppendRecord(s, x, dumps, w, Corrected).sys == System(Present(LogText([dumps(x)]), w), Empty)
  {
  }

  lemma ExtendLog(records: seq<string>, x: Json, dumps: Json -> string, w: real, w0: real)
    requires |records| >= 1
    ensures AppendRecord(System(Present(LogText(records), w0), Empty), x, dumps, w, Corrected).sys
      == System(Present(LogText(records + [dumps(x)]), w), Empty)
  {
    LogTextShape(records);
    CorrectedSpliceExtendsLog(records, dumps(x));
  }

  /** Append-then-load round trip: after appending `xs` (corrected) to a
      missing log, loading returns exactly `xs` in append order, whatever
      the clock, the default or the cache setting. What is assumed of
      `json.load` is only that it reads this one log back as `xs`. */
  lemma CorrectedRoundTrip(s: System, xs: seq<Json>, times: seq<real>, dumps: Json -> string,
                           parse: string -> Decoded, now: real, default: Json, useCache: bool, v: Variant)
    requires NoLog(s.file) && PrettyPrinter(dumps)
    requires |xs| >= 1 && |times| == |xs|
    requires parse(LogText(DumpAll(dumps, xs))) == Parsed(JList(xs))
    ensures var s' := AppendAll(s, xs, times, dumps, Corrected);
      var l := Load(s'.cache, s'.file, now, default, useCache, parse, v);
      l.result == Ok(JList(xs)) && l.readFile
  {
    CorrectedAppendsBuildLog(s, xs, times, dumps);
  }

  /** Cache coherency: with the corrected append, the next load after any
      append misses the cache and reads the file just written. */
  lemma CorrectedAppendThenLoadReads(s: System, dato: Json, dumps: Json -> string, w: real,
                                     parse: string -> Decoded, now: real, default: Json, v: Variant)
    ensures var a := AppendRecord(s, dato, dumps, w, Corrected);
      var l := Load(a.sys.cache, a.sys.file, now, default, true, parse, v);
      && a.ret == ReturnedTrue
      && l.readFile
      && (parse(a.sys.file.text).Failed? ==> l.result == Ok(OrEmpty(default)))
      && (parse(a.sys.file.text).Parsed? && Copyable(parse(a.sys.file.text).value) ==>
            l.result == Ok(parse(a.sys.file.text).value))
  {
  }

  /** As written, creating the file neither reports success nor invalidates:
      a snapshot taken before the file was removed by someone else survives
      the append. When the new file's mtime lands on the recorded one
      (coarse mtime), what the next load inside the time-to-live does
      depends on the stamp. With the stamp taken as intended, the load
      returns the old snapshot, without the new record and without reading
      the file. With the stamp as written too, the surviving method-object
      stamp makes that load raise `TypeError` instead. */
  lemma AsWrittenCreateKeepsStaleSnapshot(text0: string, m: real, x: Json, t: real, now: real,
                                          dato: Json, dumps: Json -> string, parse: string -> Decoded)
    requires parse(text0) == Parsed(x) && x.JList? && |x.items| > 0
    requires t <= now < t + TTL
    ensures
      var l1 := Load(Empty, Present(text0, m), t, JNull, true, parse, Corrected);
      var a := AppendRecord(System(Absent, l1.cache), dato, dumps, m, AsWritten);
      var l2 := Load(a.sys.cache, a.sys.file, now, JNull, true, parse, Corrected);
      && a.ret == ReturnedNone
      && l2 == LoadStep(Ok(x), l1.cache, false)
    ensures
      var l1 := Load(Empty, Present(text0, m), t, JNull, true, parse, AsWritten);
      var a := AppendRecord(System(Absent, l1.cache), dato, dumps, m, AsWritten);
      Load(a.sys.cache, a.sys.file, now, JNull, true, parse, AsWritten).result == Raised(TypeError)
  {
  }

  /** As written, the stamp bug turns a second load of an unchanged file
      into an uncaught `TypeError`, however little time has passed. */
  lemma AsWrittenSecondLoadRaises(c: CacheState, f: FileState, x: Json, t: real, now: real,
                                  default: Json, parse: string -> Decoded)
    requires Missed(c, f, t, true) && f.Present?
    requires parse(f.text) == Parsed(x) && Copyable(x)
    ensures var l1 := Load(c, f, t, default, true, parse, AsWritten);
      Load(l1.cache, f, now, default, true, parse, AsWritten).result == Raised(TypeError)
  {
    StampRaises(c, x, f, f, t, now);
  }

  /** Time-to-live with the intended stamp: a load at `t` that fills the
      cache with a non-empty list is answered from the cache, file untouched,
      by every load before `t + 60` on the unchanged file, and from `t + 60`
      on the file is read again. */
  lemma CorrectedTtlOnLoad(c: CacheState, f: FileState, x: Json, t: real, now: real,
                           default: Json, parse: string -> Decoded)
    requires Missed(c, f, t, true) && f.Present?
    requires parse(f.text) == Parsed(x) && x.JList? && |x.items| > 0
    ensures var l1 := Load(c, f, t, default, true, parse, Corrected);
      var l2 := Load(l1.cache, f, now, default, true, parse, Corrected);
      && l1.result == Ok(x)
      && (now < t + TTL ==> l2 == LoadStep(Ok(x), l1.cache, false))
      && (now >= t + TTL ==> l2.readFile && l2.result == Ok(x))
  {
    TtlExpiry(c, x, f, t, now);
  }

  /** Appending twice as written from a fresh file leaves a text that does
      not end in `]`, so a JSON parser no longer reads it as a list. */
  lemma AsWrittenTwoAppendsBreakLog(s: System, x1: Json, x2: Json, w1: real, w2: real,
                                    dumps: Json -> string, parse: string -> Decoded)
    requires NoLog(s.file) && PrettyPrinter(dumps) && ListsEndWithBracket(parse)
    requires var d := dumps(x2); |d| > 0 && d[|d| - 1] == '}'
    ensures var a1 := AppendRecord(s, x1, dumps, w1, AsWritten);
      var a2 := AppendRecord(a1.sys, x2, dumps, w2, AsWritten);
      && a1.ret == ReturnedNone && a2.ret == ReturnedTrue
      && !EndsWithBracket(a2.sys.file.text)
      && !(parse(a2.sys.file.text).Parsed? && parse(a2.sys.file.text).value.JList?)
  {
    var d := dumps(x2);
    assert !IsSpace(d[|d| - 1]);
    AsWrittenSecondAppendBreaksArray(dumps(x1), d);
    LogTextShape([dumps(x1)]);
  }

  /** Clearing twice: the first call deletes and reports `True`, the second
      reports `False` and changes nothing; a load afterwards yields
      `default or []` without reading anything. */
  lemma ClearIdempotent(s: System, now: real, default: Json, useCache: bool,
                        parse: string -> Decoded, v: Variant)
    requires s.file.Present?
    ensures var c1 := Clear(s);
      var c2 := Clear(c1.sys);
      && c1.deleted && !c2.deleted && c2.sys == c1.sys
      && Load(c2.sys.cache, c2.sys.file, now, default, useCache, parse, v)
         == LoadStep(Ok(OrEmpty(default)), Empty, false)
  {
  }
}

=== FILE: loader.dfy ===
/**
 `cargar_json`: serve the cached snapshot when there is a usable one,
 otherwise read and decode the file and, on success, fill the cache. Reading
 and decoding (`open` + `json.load`) is the parameter `parse`; every failure
 of it, read or decode, is `Failed` and degrades to `default or []`.
 */
module Loader {
  import opened PyJson
  import opened Cache

  datatype Decoded = Parsed(value: Json) | Failed

  /** The value returned (or the exception that escaped), the cache after
      the call, and whether the file was read. */
  datatype LoadStep = LoadStep(result: Result<Json>, cache: CacheState, readFile: bool)

  /** The cache was not consulted, or it answered with a miss. */
  predicate Missed(c: CacheState, f: FileState, now: real, useCache: bool) {
    !useCache || Get(c, f, now) == Ok(None)
  }

  function Load(c: CacheState, f: FileState, now: real, default: Json, useCache: bool,
                parse: string -> Decoded, v: Variant): (r: LoadStep)
    // `get` raising escapes: the call to `get` sits outside the `try`
    ensures useCache && Get(c, f, now).Raised? ==> r == LoadStep(Raised(TypeError), c, false)
    ensures r.result.Raised? ==> useCache && Get(c, f, now).Raised?
    // a hit returns the snapshot without touching the file
    ensures useCache && Get(c, f, now).Ok? && Get(c, f, now).value.Some? ==>
      r == LoadStep(Ok(c.snapshot.value), c, false)
    // a miss on an absent file
    ensures Missed(c, f, now, useCache) && f.Absent? ==> r == LoadStep(Ok(OrEmpty(default)), c, false)
    ensures Missed(c, f, now, useCache) && f.Present? ==> r.readFile
    // read or decode failure: the default, and the cache is not filled
    ensures Missed(c, f, now, useCache) && f.Present? && parse(f.text).Failed? ==>
      r.result == Ok(OrEmpty(default)) && r.cache == c
    // decoded: returned, and cached when the cache is in use
    ensures Missed(c, f, now, useCache) && f.Present? && parse(f.text).Parsed? ==>
      var d := parse(f.text).value;
      if !useCache then r.result == Ok(d) && r.cache == c
      else if Copyable(d) then r.result == Ok(d) && Set(c, d, f, now, v) == Ok(r.cache)
      else r.result == Ok(OrEmpty(default)) && r.cache == c
  {
    var cached := if useCache then Get(c, f, now) else Ok(None);
    match cached
    case Raised(e) => LoadStep(Raised(e), c, false)
    case Ok(Some(x)) => LoadStep(Ok(x), c, false)
    case Ok(None) =>
      if f.Absent? then LoadStep(Ok(OrEmpty(default)), c, false)
      else
        match parse(f.text)
        case Failed => LoadStep(Ok(OrEmpty(default)), c, true)
        case Parsed(d) =>
          if !useCache then LoadStep(Ok(d), c, true)
          else
            // an exception from `set` is caught by the `except Exception` of the `try` around the read
            match Set(c, d, f, now, v)
            case Raised(_) => LoadStep(Ok(OrEmpty(default)), c, true)
            case Ok(c') => LoadStep(Ok(d), c', true)
  }
}

=== FILE: pyjson.dfy ===
/**
 Python values as `json.load` produces them, with the few pieces of Python
 semantics the log subsystem relies on: truthiness, `default or []`,
 `dict.get`, `isinstance(v, (int, float))` and the equality `Counter` uses.
 */
module PyJson {

  datatype Option<+T> = None | Some(value: T)

  /** The Python exceptions the modelled code can raise. */
  datatype PyError = TypeError | AttributeError

  /** The outcome of a Python call: a value, or an exception that escaped. */
  datatype Result<+T> = Ok(value: T) | Raised(error: PyError)

  /** A JSON document as a Python object: `None`, `bool`, `int`, `float`,
      `str`, `list` or `dict` (a dict keeps insertion order). */
  datatype Json =
    | JNull
    | JBool(b: bool)
    | JInt(i: int)
    | JFloat(r: real)
    | JStr(s: string)
    | JList(items: seq<Json>)
    | JDict(entries: seq<Entry>)

  datatype Entry = Entry(key: string, value: Json)

  /** Python's `bool(v)`. */
  predicate Truthy(v: Json) {
    match v
    case JNull => false
    case JBool(b) => b
    case JInt(i) => i != 0
    case JFloat(r) => r != 0.0
    case JStr(s) => |s| > 0
    case JList(xs) => |xs| > 0
    case JDict(es) => |es| > 0
  }

  /** Python's `default or []`. */
  function OrEmpty(default: Json): (r: Json)
    ensures Truthy(default) ==> r == default
    ensures !Truthy(default) ==> r == JList([])
  {
    if Truthy(default) then default else JList([])
  }

  /** A Python dict never holds the same key twice. */
  predicate KeysDistinct(es: seq<Entry>) {
    forall i, j :: 0 <= i < j < |es| ==> es[i].key != es[j].key
  }

  /** `d.get(key)`: the value stored under `key`, if any. */
  function Lookup(es: seq<Entry>, key: string): (r: Option<Json>)
    ensures r.None? <==> forall i :: 0 <= i < |es| ==> es[i].key != key
    ensures r.Some? ==> exists i :: 0 <= i < |es| && es[i] == Entry(key, r.value)
  {
    if |es| == 0 then None
    else if es[0].key == key then Some(es[0].value)
    else Lookup(es[1..], key)
  }

  /** `isinstance(v, (int, float))`; `bool` is a subclass of `int`. */
  predicate IsNumber(v: Json) {
    v.JInt? || v.JFloat? || v.JBool?
  }

  /** The numeric value of an `int`, `float` or `bool` (`True` is 1). */
  function NumValue(v: Json): real
    requires IsNumber(v)
  {
    match v
    case JInt(i) => i as real
    case JFloat(r) => r
    case JBool(b) => if b then 1.0 else 0.0
  }

  /** Values a Python dict (and so a `Counter`) accepts as keys. */
  predicate Hashable(v: Json) {
    !v.JList? && !v.JDict?
  }

  /** Python `==` between hashable values: numbers compare by value across
      `bool`, `int` and `float`; everything else compares structurally. */
  predicate KeyEq(a: Json, b: Json) {
    if IsNumber(a) && IsNumber(b) then NumValue(a) == NumValue(b) else a == b
  }
}

=== FILE: stats.dfy ===
/**
 The summary statistics over the log: count, mean, maximum and minimum of
 the numeric `area` fields and the most frequent `figura`
 (`calcular_estadisticas_sin_cache`), and the way the summary view falls
 back to it when the cached path fails (`mostrar_estadisticas_resumidas`).
 Numbers are exact reals: float rounding is not modelled.
 */
module Stats {
  import opened PyJson
  import opened Canon

  /** The dict the statistics functions return. */
  datatype Stats = Stats(total: int, mean: real, maximum: real, minimum: real, top: Json)

  const Ninguna: Json := JStr("ninguna")

  predicate AllDicts(datos: seq<Json>) {
    forall i :: 0 <= i < |datos| ==> datos[i].JDict?
  }

  predicate AllHashable(xs: seq<Json>) {
    forall i :: 0 <= i < |xs| ==> Hashable(xs[i])
  }

  /** The numeric area of a record, if `isinstance(d.get('area'), (int, float))`. */
  function AreaOf(d: Json): (r: Option<real>)
    requires d.JDict?
    ensures r.Some? <==> Lookup(d.entries, "area").Some? && IsNumber(Lookup(d.entries, "area").value)
    ensures r.Some? ==> r.value == NumValue(Lookup(d.entries, "area").value)
  {
    match Lookup(d.entries, "area")
    case Some(v) => if IsNumber(v) then Some(NumValue(v)) else None
    case None => None
  }

  /** The list comprehension over `areas`: one entry per record whose area is
      a number, in record order. */
  function Areas(datos: seq<Json>): (r: seq<real>)
    requires AllDicts(datos)
    ensures |r| <= |datos|
    ensures forall i :: 0 <= i < |datos| && AreaOf(datos[i]).Some? ==> AreaOf(datos[i]).value in r
    ensures forall a :: a in r ==> exists i :: 0 <= i < |datos| && AreaOf(datos[i]) == Some(a)
  {
    if |datos| == 0 then []
    else
      assert forall i :: 1 <= i < |datos| ==> datos[1..][i - 1] == datos[i];
      AreaList(datos[0]) + Areas(datos[1..])
  }

  /** What one record contributes to `areas`. */
  function AreaList(d: Json): seq<real>
    requires d.JDict?
  {
    match AreaOf(d)
    case Some(a) => [a]
    case None => []
  }

  /** `d.get('figura', ...)` when `'figura' in d`; nothing otherwise. */
  function FiguraOf(d: Json): (r: Option<Json>)
    requires d.JDict?
    ensures r.Some? <==> exists i :: 0 <= i < |d.entries| && d.entries[i].key == "figura"
    ensures r.Some? ==> exists i :: 0 <= i < |d.entries| && d.entries[i] == Entry("figura", r.value)
  {
    Lookup(d.entries, "figura")
  }

  /** What one record contributes to `figuras`. */
  function FiguraList(d: Json): seq<Json>
    requires d.JDict?
  {
    match FiguraOf(d)
    case Some(f) => [f]
    case None => []
  }

  /** `[d.get('figura', ...) for d in datos if 'figura' in d]`. */
  function Figuras(datos: seq<Json>): (r: seq<Json>)
    requires AllDicts(datos)
    ensures |r| <= |datos|
    ensures forall i :: 0 <= i < |datos| && FiguraOf(datos[i]).Some? ==> FiguraOf(datos[i]).value in r
    ensures forall f :: f in r ==> exists i :: 0 <= i < |datos| && FiguraOf(datos[i]) == Some(f)
  {
    if |datos| == 0 then []
    else
      assert forall i :: 1 <= i < |datos| ==> datos[1..][i - 1] == datos[i];
      FiguraList(datos[0]) + Figuras(datos[1..])
  }

  /** Both comprehensions process the records one by one: the list of a
      concatenation is the concatenation of the lists. */
  lemma ComprehensionsSplit(a: seq<Json>, b: seq<Json>)
    requires AllDicts(a) && AllDicts(b)
    ensures AllDicts(a + b)
    ensures Areas(a + b) == Areas(a) + Areas(b)
    ensures Figuras(a + b) == Figuras(a) + Figuras(b)
  {
    AreasSplit(a, b);
    FigurasSplit(a, b);
  }

  lemma {:induction false} AreasSplit(a: seq<Json>, b: seq<Json>)
    requires AllDicts(a) && AllDicts(b) && AllDicts(a + b)
    ensures Areas(a + b) == Areas(a) + Areas(b)
  {
    if |a| > 0 {
      assert (a + b)[0] == a[0] && (a + b)[1..] == a[1..] + b;
      AreasSplit(a[1..], b);
    } else {
      assert a + b == b;
    }
  }

  lemma {:induction false} FigurasSplit(a: seq<Json>, b: seq<Json>)
    requires AllDicts(a) && AllDicts(b) && AllDicts(a + b)
    ensures Figuras(a + b) == Figuras(a) + Figuras(b)
  {
    if |a| > 0 {
      assert (a + b)[0] == a[0] && (a + b)[1..] == a[1..] + b;
      FigurasSplit(a[1..], b);
    } else {
      assert a + b == b;
    }
  }

  /** A record with a numeric area contributes exactly that area; one
      without contributes nothing. */
  lemma OneRecord(d: Json)
    requires d.JDict?
    ensures AreaOf(d).Some? ==> Areas([d]) == [AreaOf(d).value]
    ensures AreaOf(d).None? ==> Areas([d]) == []
    ensures FiguraOf(d).Some? ==> Figuras([d]) == [FiguraOf(d).value]
    ensures FiguraOf(d).None? ==> Figuras([d]) == []
  {
    assert [d][1..] == [];
  }

  function Sum(xs: seq<real>): real {
    if |xs| == 0 then 0.0 else xs[0] + Sum(xs[1..])
  }

  /** `max(xs)`: an element no smaller than any other. */
  function Max(xs: seq<real>): (r: real)
    requires |xs| > 0
    ensures r in xs
    ensures forall x :: x in xs ==> x <= r
  {
    if |xs| == 1 then xs[0]
    else
      var m := Max(xs[1..]);
      assert forall x :: x in xs ==> x == xs[0] || x in xs[1..];
      if xs[0] >= m then xs[0] else m
  }

  /** `min(xs)`: an element no greater than any other. */
  function Min(xs: seq<real>): (r: real)
    requires |xs| > 0
    ensures r in xs
    ensures forall x :: x in xs ==> r <= x
  {
    if |xs| == 1 then xs[0]
    else
      var m := Min(xs[1..]);
      assert forall x :: x in xs ==> x == xs[0] || x in xs[1..];
      if xs[0] <= m then xs[0] else m
  }

  /** A sum of terms that all lie in `[lo, hi]` lies in `[n * lo, n * hi]`. */
  lemma {:induction false} SumBounds(xs: seq<real>, lo: real, hi: real)
    requires forall x :: x in xs ==> lo <= x <= hi
    ensures |xs| as real * lo <= Sum(xs) <= |xs| as real * hi
  {
    if |xs| > 0 {
      assert forall x :: x in xs[1..] ==> x in xs;
      SumBounds(xs[1..], lo, hi);
      assert xs[0] in xs;
      assert Sum(xs) == xs[0] + Sum(xs[1..]);
      AddTerm(|xs[1..]| as real, |xs| as real, Sum(xs[1..]), xs[0], lo, hi);
    }
  }

  /** One more term in `[lo, hi]` moves both bounds of a sum by one step. */
  lemma AddTerm(n: real, m: real, s: real, x: real, lo: real, hi: real)
    requires m == n + 1.0
    requires n * lo <= s <= n * hi && lo <= x <= hi
    ensures m * lo <= x + s <= m * hi
  {
    assert m * lo == n * lo + lo && m * hi == n * hi + hi;
  }

  /** `sum(xs) / len(xs)`: the value whose `len(xs)`-fold is the sum. */
  function Mean(xs: seq<real>): (m: real)
    requires |xs| > 0
    ensures m * |xs| as real == Sum(xs)
  {
    DivideBack(Sum(xs), |xs|);
    Sum(xs) / |xs| as real
  }

  lemma DivideBack(s: real, k: nat)
    requires k > 0
    ensures s / k as real * k as real == s
  {
  }

  /** The mean lies between `min(xs)` and `max(xs)`. */
  lemma MeanBetween(xs: seq<real>)
    requires |xs| > 0
    ensures Min(xs) <= Mean(xs) <= Max(xs)
  {
    MeanWithin(xs, Min(xs), Max(xs));
  }

  /** A mean of terms in `[lo, hi]` lies in `[lo, hi]`. */
  lemma MeanWithin(xs: seq<real>, lo: real, hi: real)
    requires |xs| > 0
    requires forall x :: x in xs ==> lo <= x <= hi
    ensures lo <= Sum(xs) / |xs| as real <= hi
  {
    SumBounds(xs, lo, hi);
    DivideBounds(Sum(xs), |xs|, lo, hi);
  }

  lemma DivideBounds(s: real, k: nat, lo: real, hi: real)
    requires k > 0 && k as real * lo <= s <= k as real * hi
    ensures lo <= s / k as real <= hi
  {
    var n := k as real;
    assert s / n - lo == (s - n * lo) / n;
    assert hi - s / n == (n * hi - s) / n;
  }

  /** How many of `xs` a `Counter` files under the key `v`. */
  function Count(xs: seq<Json>, v: Json): (n: nat)
    ensures n <= |xs|
    ensures forall i :: 0 <= i < |xs| && KeyEq(xs[i], v) ==> n > 0
  {
    if |xs| == 0 then 0 else (if KeyEq(xs[0], v) then 1 else 0) + Count(xs[1..], v)
  }

  /** `Counter` counts element by element: the count over a concatenation
      is the sum of the counts. With `CountOne` this fixes `Count` as the
      number of occurrences filed under the key. */
  lemma {:induction false} CountSplit(a: seq<Json>, b: seq<Json>, v: Json)
    ensures Count(a + b, v) == Count(a, v) + Count(b, v)
  {
    if |a| == 0 {
      assert a + b == b;
    } else {
      assert (a + b)[0] == a[0] && (a + b)[1..] == a[1..] + b;
      CountSplit(a[1..], b, v);
    }
  }

  /** One element counts 1 exactly when it is filed under the key. */
  lemma CountOne(x: Json, v: Json)
    ensures Count([x], v) == if KeyEq(x, v) then 1 else 0
  {
  }

  /** A positive count has an element filed under the key behind it. */
  lemma {:induction false} CountWitness(xs: seq<Json>, v: Json)
    ensures Count(xs, v) > 0 ==> exists i :: 0 <= i < |xs| && KeyEq(xs[i], v)
  {
    if |xs| > 0 && !KeyEq(xs[0], v) {
      CountWitness(xs[1..], v);
      if Count(xs, v) > 0 {
        var i :| 0 <= i < |xs[1..]| && KeyEq(xs[1..][i], v);
        assert xs[i + 1] == xs[1..][i];
      }
    }
  }

  lemma KeyEqSymmetric(a: Json, b: Json)
    requires KeyEq(a, b)
    ensures KeyEq(b, a)
  {
  }

  lemma KeyEqTransitive(a: Json, b: Json, c: Json)
    requires KeyEq(a, b) && KeyEq(b, c)
    ensures KeyEq(a, c)
  {
  }

  /** Values a `Counter` treats as the same key have the same count. */
  lemma {:induction false} CountRespectsKeyEq(xs: seq<Json>, a: Json, b: Json)
    requires KeyEq(a, b)
    ensures Count(xs, a) == Count(xs, b)
  {
    if |xs| > 0 {
      if KeyEq(xs[0], a) {
        KeyEqTransitive(xs[0], a, b);
      }
      if KeyEq(xs[0], b) {
        KeyEqSymmetric(a, b);
        KeyEqTransitive(xs[0], b, a);
      }
      CountRespectsKeyEq(xs[1..], a, b);
    }
  }

  /** The scan `max` performs over the counter: candidates `k` onwards,
      keeping the first index of greatest count seen so far (a later index
      replaces it only on a strictly greater count). */
  function MostCommonFrom(xs: seq<Json>, k: nat, best: nat): (r: nat)
    requires best < k <= |xs| || (best == 0 && k == 0 && |xs| > 0)
    requires forall j :: 0 <= j < k ==> Count(xs, xs[j]) <= Count(xs, xs[best])
    requires forall j :: 0 <= j < best ==> Count(xs, xs[j]) < Count(xs, xs[best])
    ensures r < |xs|
    ensures forall j :: 0 <= j < |xs| ==> Count(xs, xs[j]) <= Count(xs, xs[r])
    ensures forall j :: 0 <= j < r ==> Count(xs, xs[j]) < Count(xs, xs[r])
    decreases |xs| - k
  {
    if k == |xs| then best
    else if Count(xs, xs[k]) > Count(xs, xs[best]) then MostCommonFrom(xs, k + 1, k)
    else MostCommonFrom(xs, k + 1, best)
  }

  /** `Counter(xs).most_common(1)[0][0]`: the key of greatest count, ties
      going to the key met first, stored as its first occurrence. */
  function MostCommon(xs: seq<Json>): (r: Json)
    requires |xs| > 0
    ensures r in xs
    ensures forall x :: x in xs ==> Count(xs, x) <= Count(xs, r)
  {
    xs[MostCommonIndex(xs)]
  }

  function MostCommonIndex(xs: seq<Json>): (r: nat)
    requires |xs| > 0
    ensures r < |xs|
    ensures forall j :: 0 <= j < |xs| ==> Count(xs, xs[j]) <= Count(xs, xs[r])
    ensures forall j :: 0 <= j < r ==> Count(xs, xs[j]) < Count(xs, xs[r])
  {
    MostCommonFrom(xs, 0, 0)
  }

  /** The answer is the first occurrence of its key (no equal value comes
      before it), and every key appearing before it is strictly rarer: among
      the most frequent keys, the one met first wins. */
  lemma MostCommonFirstOfClass(xs: seq<Json>)
    requires |xs| > 0
    ensures var r := MostCommonIndex(xs);
      && (forall j :: 0 <= j < r ==> !KeyEq(xs[j], xs[r]))
      && (forall j :: 0 <= j < r ==> Count(xs, xs[j]) < Count(xs, xs[r]))
  {
    var r := MostCommonIndex(xs);
    forall j | 0 <= j < r ensures !KeyEq(xs[j], xs[r]) {
      if KeyEq(xs[j], xs[r]) {
        CountRespectsKeyEq(xs, xs[j], xs[r]);
      }
    }
  }

  /** `Counter(figuras).most_common(1)[0][0] if figuras else 'ninguna'`. */
  function TopFigure(figs: seq<Json>): (top: Json)
    ensures |figs| == 0 ==> top == Ninguna
    ensures |figs| > 0 ==> top in figs && forall x :: x in figs ==> Count(figs, x) <= Count(figs, top)
  {
    if |figs| == 0 then Ninguna else MostCommon(figs)
  }

  /** The figures of the returned dict: with no numeric area the count and
      the three area figures are 0 (the count is not the number of
      records); otherwise the count is the number of records and the mean,
      maximum and minimum are those of the areas. */
  function Summarise(records: nat, areas: seq<real>, top: Json): (s: Stats)
    ensures s.top == top
    ensures |areas| == 0 ==> s == Stats(0, 0.0, 0.0, 0.0, top)
    ensures |areas| > 0 ==>
      && s.total == records
      && s.maximum in areas && s.minimum in areas
      && (forall a :: a in areas ==> s.minimum <= a <= s.maximum)
      && s.minimum <= s.mean <= s.maximum
      && s.mean == Mean(areas)
  {
    if |areas| == 0 then Stats(0, 0.0, 0.0, 0.0, top)
    else
      MeanBetween(areas);
      Stats(records, Mean(areas), Max(areas), Min(areas), top)
  }

  /** `calcular_estadisticas_sin_cache`. A record that is not a dict makes
      `d.get` raise `AttributeError`; an unhashable `figura` makes `Counter`
      raise `TypeError`. */
  function StatsWithoutCache(datos: seq<Json>): (r: Result<Stats>)
    ensures r == Raised(AttributeError) <==> !AllDicts(datos)
    ensures r == Raised(TypeError) <==> AllDicts(datos) && !AllHashable(Figuras(datos))
    ensures r.Ok? <==> AllDicts(datos) && AllHashable(Figuras(datos))
    ensures r.Ok? ==> r.value == Summarise(|datos|, Areas(datos), TopFigure(Figuras(datos)))
  {
    if !AllDicts(datos) then Raised(AttributeError)
    else
      var figs := Figuras(datos);
      if !AllHashable(figs) then Raised(TypeError)
      else Ok(Summarise(|datos|, Areas(datos), TopFigure(figs)))
  }

  /** A canonical value can be hashed: scalars always, a tuple when its
      elements can (lists and dicts inside it cannot), pairs recursively. */
  predicate CanonHashable(c: Canon)
    decreases c
  {
    match c
    case CScalar(v) => Hashable(v)
    case CTuple(xs) => AllHashable(xs)
    case CItems(items) => forall i :: 0 <= i < |items| ==> CanonHashable(items[i].value)
  }

  predicate KeyHashable(key: TupleKey) {
    match key
    case Records(rs) => forall i, j :: 0 <= i < |rs| && 0 <= j < |rs[i]| ==> CanonHashable(rs[i][j].value)
    case Digest(_) => true
  }

  /** `calcular_estadisticas_cached(datos_tuple)`. The `lru_cache` hashes its
      argument first (`TypeError` when it holds a list); then each element
      of the tuple, a tuple of pairs or the digest string, is asked for
      `.get`, which neither has. Only the empty tuple gets through. */
  function CachedStats(key: TupleKey): (r: Result<Stats>)
    ensures key == Records([]) ==> r == Ok(Stats(0, 0.0, 0.0, 0.0, Ninguna))
    ensures key != Records([]) ==> r.Raised?
    ensures r == Raised(TypeError) <==> !KeyHashable(key)
  {
    if !KeyHashable(key) then Raised(TypeError)
    else if key == Records([]) then Ok(Stats(0, 0.0, 0.0, 0.0, Ninguna))
    else Raised(AttributeError)
  }

  /** The statistics `mostrar_estadisticas_resumidas` displays: none for an
      empty list, otherwise the cached result, or, when the cached path
      raises (it is inside `try ... except Exception`), the uncached one,
      whose own exceptions escape. */
  function SummaryStats(datos: seq<Json>, digest: seq<Json> -> string): (r: Result<Option<Stats>>)
    ensures |datos| == 0 ==> r == Ok(None)
  {
    if |datos| == 0 then Ok(None)
    else
      match CachedStats(DatosATuple(datos, digest))
      case Ok(s) => Ok(Some(s))
      case Raised(_) =>
        match StatsWithoutCache(datos)
        case Ok(s) => Ok(Some(s))
        case Raised(e) => Raised(e)
  }

  /** The cached path never answers for a non-empty list, so the summary is
      always the uncached statistics, exceptions included. */
  lemma SummaryIsUncached(datos: seq<Json>, digest: seq<Json> -> string)
    requires |datos| > 0
    ensures StatsWithoutCache(datos).Ok? ==> SummaryStats(datos, digest) == Ok(Some(StatsWithoutCache(datos).value))
    ensures StatsWithoutCache(datos).Raised? ==> SummaryStats(datos, digest) == Raised(StatsWithoutCache(datos).error)
  {
    var key := DatosATuple(datos, digest);
    if key.Records? {
      assert |key.records| == |datos|;
    }
  }
}

=== FILE: text.dfy ===
/**
 The string operations the append path uses: `str.split('\n')`,
 `sep.join(parts)`, `str.strip()` as a blankness test, and the
 re-indentation of a serialised record by four spaces per non-blank line.
 */
module Text {

  /** Characters for which Python's `str.isspace()` holds. */
  predicate IsSpace(c: char) {
    c == ' ' || ('\t' <= c <= '\r') || ('\U{1C}' <= c <= '\U{1F}')
    || c == '\U{85}' || c == '\U{A0}' || c == '\U{1680}'
    || ('\U{2000}' <= c <= '\U{200A}')
    || c == '\U{2028}' || c == '\U{2029}' || c == '\U{202F}' || c == '\U{205F}' || c == '\U{3000}'
  }

  /** `not line.strip()`: the line holds nothing but whitespace. */
  predicate IsBlank(line: string) {
    forall i :: 0 <= i < |line| ==> IsSpace(line[i])
  }

  predicate NoNewline(s: string) {
    forall i :: 0 <= i < |s| ==> s[i] != '\n'
  }

  /** `sep.join(parts)`. */
  function JoinWith(sep: string, parts: seq<string>): string
  {
    if |parts| == 0 then ""
    else if |parts| == 1 then parts[0]
    else parts[0] + sep + JoinWith(sep, parts[1..])
  }

  /** `s.split('\n')`: the pieces between newlines, never none. */
  function Lines(s: string): (ls: seq<string>)
    ensures |ls| >= 1
  {
    if |s| == 0 then [""]
    else
      var rest := Lines(s[1..]);
      if s[0] == '\n' then
        [""] + rest
      else
        [[s[0]] + rest[0]] + rest[1..]
  }

  /** No piece of `split('\n')` holds a newline, and joining the pieces
      back with newlines gives the text again. */
  lemma {:induction false} LinesJoin(s: string)
    ensures forall i :: 0 <= i < |Lines(s)| ==> NoNewline(Lines(s)[i])
    ensures JoinWith("\n", Lines(s)) == s
  {
    if |s| > 0 {
      var rest := Lines(s[1..]);
      LinesJoin(s[1..]);
      if s[0] == '\n' {
        assert Lines(s) == [""] + rest;
        if |rest| == 1 {
          assert JoinWith("\n", Lines(s)) == "" + "\n" + rest[0];
        } else {
          assert ([""] + rest)[1..] == rest;
        }
        assert [s[0]] + s[1..] == s;
      } else {
        var h := [s[0]] + rest[0];
        assert Lines(s) == [h] + rest[1..];
        forall k | 0 <= k < |h| ensures h[k] != '\n' {
          if k > 0 { assert h[k] == rest[0][k - 1]; }
        }
        if |rest| == 1 {
          assert JoinWith("\n", Lines(s)) == h;
        } else {
          assert ([h] + rest[1..])[1..] == rest[1..];
          assert JoinWith("\n", rest) == rest[0] + "\n" + JoinWith("\n", rest[1..]);
        }
        assert [s[0]] + s[1..] == s;
      }
    }
  }

  /** Each line of the record gets four spaces in front unless it is blank. */
  function IndentLine(line: string): string {
    if IsBlank(line) then line else "    " + line
  }

  function IndentLines(ls: seq<string>): (r: seq<string>)
    ensures |r| == |ls|
    ensures forall i :: 0 <= i < |ls| ==> r[i] == IndentLine(ls[i])
  {
    if |ls| == 0 then [] else [IndentLine(ls[0])] + IndentLines(ls[1..])
  }

  /** `'\n'.join('    ' + line if line.strip() else line for line in s.split('\n'))`. */
  function Indent(s: string): (r: string)
    ensures IsBlank(s) ==> r == s
    ensures NoNewline(s) && !IsBlank(s) ==> r == "    " + s
  {
    IndentedShape(s);
    JoinWith("\n", IndentLines(Lines(s)))
  }

  /** A whitespace-only text comes back unchanged from re-indentation, and a
      single non-blank line gets four spaces in front. */
  lemma IndentedShape(s: string)
    ensures IsBlank(s) ==> JoinWith("\n", IndentLines(Lines(s))) == s
    ensures NoNewline(s) && !IsBlank(s) ==> JoinWith("\n", IndentLines(Lines(s))) == "    " + s
  {
    var ls := Lines(s);
    if IsBlank(s) {
      LinesBlank(s);
      LinesJoin(s);
      assert IndentLines(ls) == ls;
    }
    if NoNewline(s) {
      LinesOfLine(s);
      assert IndentLines(ls) == [IndentLine(s)];
    }
  }

  /** The pieces of a whitespace-only text are whitespace-only. */
  lemma {:induction false} LinesBlank(s: string)
    requires IsBlank(s)
    ensures forall i :: 0 <= i < |Lines(s)| ==> IsBlank(Lines(s)[i])
  {
    if |s| > 0 {
      LinesBlank(s[1..]);
      var rest := Lines(s[1..]);
      if s[0] != '\n' {
        var h := [s[0]] + rest[0];
        assert forall k :: 0 <= k < |h| ==> IsSpace(h[k]) by {
          forall k | 0 <= k < |h| ensures IsSpace(h[k]) {
            if k > 0 { assert h[k] == rest[0][k - 1]; }
          }
        }
        assert Lines(s) == [h] + rest[1..];
      }
    }
  }

  lemma JoinAppend(sep: string, parts: seq<string>, last: string)
    requires |parts| >= 1
    ensures JoinWith(sep, parts + [last]) == JoinWith(sep, parts) + sep + last
  {
    if |parts| == 1 {
      assert parts + [last] == [parts[0], last];
    } else {
      assert (parts + [last])[1..] == parts[1..] + [last];
      JoinAppend(sep, parts[1..], last);
    }
  }

  lemma {:induction false} LinesOfLine(s: string)
    requires NoNewline(s)
    ensures Lines(s) == [s]
  {
    if |s| > 0 {
      LinesOfLine(s[1..]);
      assert [s[0]] + s[1..] == s;
    }
  }

  lemma {:induction false} LinesOfJoin2(a: string, b: string)
    requires NoNewline(a)
    ensures Lines(a + "\n" + b) == [a] + Lines(b)
  {
    var t := a + "\n" + b;
    if |a| == 0 {
      assert t == "\n" + b;
      assert t[1..] == b;
    } else {
      LinesOfJoin2(a[1..], b);
      assert t[0] == a[0] && t[1..] == a[1..] + "\n" + b;
      assert [a[0]] + a[1..] == a;
    }
  }

  /** Splitting on newlines undoes joining newline-free pieces with newlines. */
  lemma {:induction false} LinesOfJoin(ls: seq<string>)
    requires |ls| >= 1
    requires forall i :: 0 <= i < |ls| ==> NoNewline(ls[i])
    ensures Lines(JoinWith("\n", ls)) == ls
  {
    if |ls| == 1 {
      LinesOfLine(ls[0]);
    } else {
      LinesOfJoin(ls[1..]);
      LinesOfJoin2(ls[0], JoinWith("\n", ls[1..]));
      assert [ls[0]] + ls[1..] == ls;
    }
  }

  /** Re-indentation keeps the line structure: the text has exactly as many
      lines as before, and line `i` is line `i` of the record, prefixed by
      four spaces when it holds a non-whitespace character. */
  lemma IndentKeepsLines(s: string)
    ensures |Lines(Indent(s))| == |Lines(s)|
    ensures forall i :: 0 <= i < |Lines(s)| ==>
      Lines(Indent(s))[i] == (if IsBlank(Lines(s)[i]) then Lines(s)[i] else "    " + Lines(s)[i])
  {
    var ls := Lines(s);
    LinesJoin(s);
    var ind := IndentLines(ls);
    forall i | 0 <= i < |ind| ensures NoNewline(ind[i]) {
      IndentLineNoNewline(ls[i]);
    }
    LinesOfJoin(ind);
    assert Indent(s) == JoinWith("\n", ind);
  }

  lemma IndentLineNoNewline(l: string)
    requires NoNewline(l)
    ensures NoNewline(IndentLine(l))
  {
    if !IsBlank(l) {
      var t := "    " + l;
      forall k | 0 <= k < |t| ensures t[k] != '\n' {
        if k >= 4 { assert t[k] == l[k - 4]; }
      }
    }
  }

  /** The last character of a joined text is the last character of the last
      piece when that piece is not empty. */
  lemma {:induction false} JoinLast(sep: string, parts: seq<string>)
    requires |parts| >= 1 && |parts[|parts| - 1]| > 0
    ensures var j := JoinWith(sep, parts); var p := parts[|parts| - 1];
      |j| > 0 && j[|j| - 1] == p[|p| - 1]
  {
    if |parts| > 1 {
      JoinLast(sep, parts[1..]);
    }
  }

  lemma {:induction false} LinesLast(s: string)
    requires |s| > 0 && s[|s| - 1] != '\n'
    ensures var ls := Lines(s); var l := ls[|ls| - 1];
      |l| > 0 && l[|l| - 1] == s[|s| - 1]
  {
    if |s| > 1 {
      var rest := Lines(s[1..]);
      LinesLast(s[1..]);
      assert s[1..][|s[1..]| - 1] == s[|s| - 1];
      if s[0] != '\n' && |rest| == 1 {
        var l := [s[0]] + rest[0];
        assert Lines(s) == [l];
        assert l[|l| - 1] == rest[0][|rest[0]| - 1];
      }
    } else {
      assert s[1..] == [];
    }
  }

  /** Indenting a line whose last character is not blank keeps that
      character last. */
  lemma IndentLineLast(l: string)
    requires |l| > 0 && !IsSpace(l[|l| - 1])
    ensures var il := IndentLine(l); |il| > 0 && il[|il| - 1] == l[|l| - 1]
  {
    assert !IsBlank(l);
  }

  /** Re-indentation leaves the final character of a record in place when
      that character is not whitespace (so a record ending in `}` still
      ends in `}` once indented). */
  lemma IndentKeepsLastChar(s: string)
    requires |s| > 0 && !IsSpace(s[|s| - 1])
    ensures |Indent(s)| > 0 && Indent(s)[|Indent(s)| - 1] == s[|s| - 1]
  {
    var ls := Lines(s);
    var c := s[|s| - 1];
    LinesLast(s);
    assert |ls[|ls| - 1]| > 0 && ls[|ls| - 1][|ls[|ls| - 1]| - 1] == c;
    IndentedLast(ls, c);
    assert Indent(s) == JoinWith("\n", IndentLines(ls));
  }

  /** Indenting and joining lines whose last line ends in the non-blank
      character `c` gives a text ending in `c`. */
  lemma IndentedLast(ls: seq<string>, c: char)
    requires |ls| >= 1 && |ls[|ls| - 1]| > 0
    requires ls[|ls| - 1][|ls[|ls| - 1]| - 1] == c && !IsSpace(c)
    ensures var j := JoinWith("\n", IndentLines(ls)); |j| > 0 && j[|j| - 1] == c
  {
    var ind := IndentLines(ls);
    var n := |ls| - 1;
    var il := IndentLine(ls[n]);
    IndentLineLast(ls[n]);
    assert ind[n] == il && |il| > 0 && il[|il| - 1] == c;
    JoinLast("\n", ind);
  }

  /** Splitting, re-indenting and joining add only spaces and newlines: a
      character the record does not hold, other than those two, does not
      appear in its indented form either. */
  lemma {:induction false} LinesLack(s: string, ch: char)
    requires ch !in s
    ensures forall i :: 0 <= i < |Lines(s)| ==> ch !in Lines(s)[i]
  {
    if |s| > 0 {
      assert ch !in s[1..] by {
        assert forall k :: 0 <= k < |s[1..]| ==> s[1..][k] == s[k + 1];
      }
      LinesLack(s[1..], ch);
    }
  }

  lemma {:induction false} JoinLacks(sep: string, parts: seq<string>, ch: char)
    requires ch !in sep
    requires forall i :: 0 <= i < |parts| ==> ch !in parts[i]
    ensures ch !in JoinWith(sep, parts)
  {
    if |parts| > 1 {
      JoinLacks(sep, parts[1..], ch);
    }
  }

  lemma IndentLacks(s: string, ch: char)
    requires ch !in s && ch != ' ' && ch != '\n'
    ensures ch !in Indent(s)
  {
    var ls := Lines(s);
    LinesLack(s, ch);
    var ind := IndentLines(ls);
    forall i | 0 <= i < |ind| ensures ch !in ind[i] {
      assert ch !in ls[i];
      assert ch !in "    ";
    }
    JoinLacks("\n", ind, ch);
  }
}
